=== FILE: README.md ===
# MySQL operations dashboard — a Dafny model of the collection core

The dashboard shows three things: the health of a small cluster of LLM
inference servers, host metrics pulled from a Zabbix server, and the state of
a MySQL primary with its replicas. This project models the backend code that
collects those numbers (`app/core/`) as pure Dafny functions and proves
properties of them:

- `utils.dfy` (module `Utils`) models the `TimedCache` and the
  `retry_async` decorator.
  - A cache entry is kept with its insertion time.
  - A retried call becomes a run of `Call`/`Sleep` steps.
- `db.dfy` (module `Db`) models the `ip:port` pool registry, the QPS sampler
  and the two probes `get_basic_status` and `get_details`.
  - The registry and the previous QPS samples are explicit state, passed in
    and returned.
  - Each pool creation, connection acquisition and statement is an input.
    It is either a value or the message of the exception it raised
    (`Attempt`).
- `uptime.dfy` (module `Uptime`) holds the uptime text "N days M hours".
  The database probe and the Zabbix bridge both produce it.
- `zabbix.dfy` (module `Zabbix`) models `get_hosts_metrics`:
  - the default and `err` records;
  - resolving each host to its first monitored interface;
  - dispatching item keys to the `cpu` / `mem` / `disk` / `uptime` fields.
- `inference.dfy` (module `Inference`) models `check_node` and the shared
  `get_session`.
  - The HTTP reply and the TCP connect are inputs.
  - Latencies are those inputs, already truncated to whole milliseconds.
- `collector.dfy` (module `Collector`) holds the three entry points of
  `DataCollector`.
- `settings.dfy` (module `Settings`) holds the configured nodes, hosts and
  databases.
- `wrappers.dfy` and `text.dfy` are shared helpers:
  - `Option` and `Attempt`;
  - Python's `or` on optional strings;
  - `str(int)`;
  - substring search.

Four behaviours of the code are worth knowing before reading the contracts:

- `TimedCache` is meant to drop entries older than `ttl`. `utils.py:14`
  compares only the `.seconds` part of the age, so entries come back daily
  (see Findings).
- `check_node` reads a node's fields as attributes, but every configured
  node is a dict. Each call raises, and the retried probe yields `None` for
  every node (see Findings).
- A failing statement in `get_basic_status` does not reset the record. The
  fields assigned before it keep their values, next to the error
  (`Db.FieldsKeptBeforeFailure`).
- `connected` is set before the replication statement. A failure there
  leaves `connected` true next to the error (`Db.ConnectedWithError`).

## Model

| member | source | states |
|---|---|---|
| Wrappers.OrElse | app/core/db.py:93 | `a or b` gives `a` when it is a non-empty string and `b` otherwise. The result is truthy iff either operand is. |
| Utils.SecondsComponent | app/core/utils.py:14 | The `.seconds` of an age lies in [0, 86400). It differs from the age by whole days. It equals the age when the age is under a day. |
| Utils.Get | app/core/utils.py:11-16 | A missing key reads as nothing. A present key yields its stored value exactly when the seconds part of its age is below the TTL. |
| Utils.Set | app/core/utils.py:18-19 | Stores the value with the current time and keeps the TTL. The keys grow by the one key. Every other entry is unchanged. |
| Utils.GetAfterSet | app/core/utils.py:11-19 | A value read back after `set` is the value set iff `(now - setAt) mod 86400 < ttl`. |
| Utils.FreshValueServed | app/core/utils.py:14 | Within the first `ttl` seconds after `set`, the value is served. |
| Utils.SetLeavesOtherKeys | app/core/utils.py:18-19 | Setting one key does not change what any other key reads. |
| Utils.DefaultCacheLifetime | app/core/utils.py:7-19 | With the constructor's default TTL of 30 seconds, a value set is still served 29 seconds later and is gone at 30 seconds. |
| Utils.LatestSetWins | app/core/utils.py:19 | A second `set` of the same key replaces both the value and the timestamp. |
| Utils.StaleEntryRevives | app/core/utils.py:14-22 | In the 15-second module cache, an entry set at 0 is served at 10 and gone at 15. It is served again at 86405. |
| Utils.GetByTotalAge | app/core/utils.py:14 | Corrected getter on the total age: a missing key reads as nothing, and a served value is the stored one. |
| Utils.TotalAgeExpiresForever | app/core/utils.py:14 | With the total age, a value set at `t0` is served iff `now < t0 + ttl` and is absent from then on. |
| Utils.ReadingsAgreeWithinADay | app/core/utils.py:14 | The as-written getter and the corrected getter agree on entries younger than a day. |
| Utils.RetryFrom | app/core/utils.py:29-38 | Calls strictly alternate with sleeps of `delay`, and attempts are numbered consecutively. Every attempt before the last raised. A value is the last attempt's return value. No value means attempt `retries` was reached and raised. |
| Utils.Retry | app/core/utils.py:24-38 | The wrapper returns a value iff some attempt `0..retries` returns. The value is the first successful attempt's, and every earlier attempt raised. |
| Utils.AlternatingCounts | app/core/utils.py:29-35 | An alternating run of `2m+1` steps makes `m+1` calls and `m` sleeps. |
| Utils.RetryCallBudget | app/core/utils.py:29-35 | Between 1 and `retries+1` calls, one sleep fewer than calls, and the run ends with a call rather than a sleep. |
| Utils.AlwaysRaising | app/core/utils.py:29-38 | An always-raising function gets exactly `retries+1` calls and `retries` sleeps. The last step is `Call(retries)` and the result is `None`. |
| Utils.FirstAttemptReturns | app/core/utils.py:30-31 | A first attempt that returns is handed back at once, with one call and no sleep. |
| Utils.DefaultSchedule | app/core/utils.py:24-35 | With the defaults (2 retries, 1 s), an always-raising function gives the run call, sleep 1, call, sleep 1, call. |
| Uptime.Split | app/core/db.py:58 | Hours are in [0, 24), and `days*86400 + hours*3600 <= s < days*86400 + (hours+1)*3600`. |
| Uptime.UptimeText | app/core/db.py:58 | The uptime text renders the `Split` of the seconds: day count, day mark, hour count, hour mark. |
| Uptime.HourCount | app/core/zabbix.py:86-88 | Any day/hour pair within those bounds encodes the hour count `s div 3600`, so the split is unique. |
| Uptime.RenderInjective | app/core/zabbix.py:89 | Different day/hour pairs render as different texts. |
| Uptime.UptimeTextSameHour | app/core/db.py:57-58 | Two uptimes render the same text iff they lie in the same whole hour. |
| Text.HostPort | app/core/db.py:13 | An endpoint is written as the IP, then a colon, then the decimal port. |
| Db.PoolKey | app/core/db.py:65 | The pool registry and the QPS samples are keyed by the endpoint written with `HostPort`. |
| Db.PoolKeyIdentifiesEndpoint | app/core/db.py:13 | Two configurations share a registry key iff they have the same IP and port. |
| Db.SettingsFor | app/core/db.py:15-25 | A new pool uses the configured host, port, user and password, a 3 s connect timeout, a minimum of 1 and a maximum of 5 connections, and autocommit. |
| Db.GetPool | app/core/db.py:11-26 | The registry only grows. An existing key's pool is returned without creating one. A failing creation stores nothing and propagates the error. A created pool is stored under exactly the new key. |
| Db.EndpointSharesPool | app/core/db.py:12-26 | After a lookup, a second configuration with the same IP and port gets the same pool, whatever its credentials. |
| Db.OtherEndpointsUntouched | app/core/db.py:14-26 | A lookup leaves the entry of every other endpoint unchanged. |
| Db.TruncDiv | app/core/db.py:72 | The quotient is rounded toward zero, as `int(a / b)` rounds, negative deltas included. |
| Db.TruncQuotientUnique | app/core/db.py:72 | At most one integer is that rounded quotient, so the sampler's rate is determined. |
| Db.SampleQps | app/core/db.py:63-75 | The stored sample is always overwritten. The rate is 0 on the first sample and 0 when no time elapsed. Otherwise it is the counter delta over the elapsed time, rounded toward zero. |
| Db.QpsExample | app/core/db.py:65-75 | A first sample reads 0. Going from 1000 to 1600 queries in 30 s reads 20. |
| Db.CounterResetGivesNegativeRate | app/core/db.py:68-72 | A counter that went down gives a negative rate (-490), because the rate is not clamped. |
| Db.DefaultStatus | app/core/db.py:35-40 | The initial record carries the IP and role. It is not connected, has no error, and has empty texts, zero counts and rate, and the replication defaults (`No`, -1, empty file, position 0, empty GTID). |
| Db.GtidOf | app/core/db.py:97 | The GTID field is never empty: the retrieved set, else the executed set, else `OFF`. |
| Db.ApplySlaveRow | app/core/db.py:89-97 | A replica row sets `io`, `sql`, the file and the positions. The delay is -1 when the lag is unknown, else the lag. The error is the SQL error when non-empty, else the IO error. The basic fields are kept. |
| Db.MasterBranch | app/core/db.py:80-85 | The primary branch touches only the error, file and position. A raising statement sets the error. A missing row changes nothing. A row sets file and position. |
| Db.SlaveBranch | app/core/db.py:86-97 | The replica branch keeps the basic fields. A raising statement only sets the error. A missing row changes nothing. A row sets the thread states, file, read/exec positions and GTID, and keeps the position. |
| Db.GetBasicStatus | app/core/db.py:34-100 | The report carries the configured IP and role. It is connected iff the pool, connection and all five counter reads succeed. A report that is not connected carries `str(e)` of the first step that raised, in step order, rate 0, the replication defaults and an untouched sample store. A connected report stores a fresh sample for its endpoint. |
| Db.FieldsKeptBeforeFailure | app/core/db.py:46-58 | Version, connection counts and uptime text are each kept iff their statement and every earlier one succeeded, and are empty or 0 otherwise. |
| Db.BasicStatusQps | app/core/db.py:61-75 | A connected report's `qps` is the sampler's rate against the previous sample of its endpoint. |
| Db.ProbeTouchesOwnKey | app/core/db.py:13-15 | A probe leaves every other endpoint's pool and rate sample as it found them, present or absent. |
| Db.ConnectedProbeStores | app/core/db.py:61-77 | A connected probe had its query counter read. Its endpoint then has a pool, and its rate sample is that counter at the probe's time. |
| Db.MasterReplication | app/core/db.py:80-85 | A connected primary with a status row reports that row's binlog file and position. Without a row, or when the statement raises, it reports the default file and position, plus the error in the latter case. The replica fields keep their defaults. |
| Db.SlaveReplication | app/core/db.py:86-97 | A connected replica with a status row reports the row's thread states, delay, error, GTID, file and read/exec positions, and keeps position 0. Without a row, or when the statement raises, it reports the defaults, plus the error in the latter case. |
| Db.ConnectedWithError | app/core/db.py:77-99 | If the replication query fails after the counters were read, the report is connected and also carries an error. |
| Db.ProbesCalledOnce | app/core/db.py:98-104 | Both probes swallow exceptions, so under `retry_async()` each is called once and its record is returned. |
| Db.HitRateFor | app/core/db.py:122 | The hit rate is a ratio iff there were read requests, and 100% otherwise. |
| Db.GetDetails | app/core/db.py:104-156 | The error is absent iff every mandatory step succeeds, and otherwise it is `str(e)` of the first step that raised. InnoDB metrics are present iff the three InnoDB reads succeed. Locks, slow queries and tables are kept iff their step and every earlier one succeed, and a failing slow-query read does not fail the probe. |
| Db.NoReadRequestsMeansAllHits | app/core/db.py:118-122 | With zero read requests, the reported hit rate is 100%. |
| Db.SlowQueriesIsolated | app/core/db.py:134-143 | Whether the slow-query read succeeds changes only the slow-query list. |
| Zabbix.DefaultRecord | app/core/zabbix.py:34 | The default record is `offline` for the IP, with zero metrics and uptime `-`. |
| Zabbix.ErrRecord | app/core/zabbix.py:99 | The error record is `err` for the IP, with zero metrics and uptime `-`. |
| Zabbix.DefaultRecords | app/core/zabbix.py:34 | There is one record for each configured IP, under that IP, and nothing else. Each is `offline` with zero metrics and uptime `-`. |
| Zabbix.ErrRecords | app/core/zabbix.py:96-99 | There is one record for each configured IP, under that IP, and nothing else. Each is `err` with zero metrics and uptime `-`. |
| Zabbix.FirstMonitored | app/core/zabbix.py:37-41 | A host resolves to a monitored interface that no earlier interface precedes among the monitored ones. It resolves to none iff no interface is monitored. |
| Zabbix.FirstOfMonitoredOnly | app/core/zabbix.py:37-41 | Resolution equals the head of the host's monitored interfaces. |
| Zabbix.UnmonitoredInterfacesIgnored | app/core/zabbix.py:37-41 | Hosts whose monitored interfaces agree resolve to the same IP. |
| Zabbix.ResolveOne | app/core/zabbix.py:36-41 | Record keys stay the configured IPs. A host that resolves maps its id to its IP. Otherwise the id map is unchanged. |
| Zabbix.ResolveHosts | app/core/zabbix.py:33-41 | There is exactly one record per configured IP, and every id in the map points to a record that is `online`. |
| Zabbix.ResolvedRecord | app/core/zabbix.py:34-41 | A configured IP's record is its default, `online` iff some host resolves to it. |
| Zabbix.ResolvedIds | app/core/zabbix.py:36-39 | A host id is in the map iff some host with that id resolves. |
| Zabbix.LastResolvingWins | app/core/zabbix.py:36-39 | When several hosts share an id, the map holds the IP of the last one that resolves. |
| Zabbix.NothingResolved | app/core/zabbix.py:43-45 | When no host resolves, the records are the defaults and the map is empty. |
| Zabbix.Classify | app/core/zabbix.py:76-85 | Key dispatch is by substring, with CPU before memory before disk before uptime. |
| Zabbix.SetField | app/core/zabbix.py:77-89 | Writes exactly one field. The other fields, the IP and the status keep their values. |
| Zabbix.ItemReading | app/core/zabbix.py:75-91 | A cpu, memory or disk key gives the converted percentage, and no reading when the conversion fails. An uptime key gives the days/hours text of the integer value, and no reading when the conversion fails. A key that feeds no field gives no reading. |
| Zabbix.ApplyItem | app/core/zabbix.py:67-91 | Applying an item never changes the set of IPs or any IP's status. |
| Zabbix.ApplyItems | app/core/zabbix.py:67-91 | The item loop never changes the set of IPs or any IP's status. |
| Zabbix.LastReadingWins | app/core/zabbix.py:67-91 | Each field ends with the last parseable reading for it, in API order, and keeps its value when there is none. |
| Zabbix.UnresolvedItemSkipped | app/core/zabbix.py:68-70 | An item of an unresolved host changes nothing. |
| Zabbix.GetHostsMetrics | app/core/zabbix.py:10-99 | Disabled, the result is `{}`. Enabled, the keys are exactly the configured IPs. Any failing API call turns every record into `err`. |
| Zabbix.ReadingsOnSuccess | app/core/zabbix.py:43-91 | After a successful run, each of an IP's cpu, mem, disk and uptime fields holds the last usable item reading for it, in API order. Without one, or when no host resolved, the field keeps its default. |
| Zabbix.MetricsOnSuccess | app/core/zabbix.py:33-94 | After a successful run, an IP is `online` iff a host resolved to it. An IP that is not `online` keeps its default record. |
| Zabbix.NoHostResolves | app/core/zabbix.py:43-45 | When no host resolves, every IP keeps its default `offline` record. |
| Zabbix.NoReadingForOfflineIp | app/core/zabbix.py:67-70 | Items never reach an IP that no host resolved to. |
| Inference.Label | app/core/inference.py:35-57 | Each state has a non-empty text. Exactly the HTTP states start with `h`, and their text starts with `http_`. |
| Inference.Endpoint | app/core/inference.py:22 | The `url` field is the node's endpoint written with `HostPort`. |
| Inference.LabelRoundTrip | app/core/inference.py:35-57 | Each status text (`ready`, `http_<code>`, `tcp_ok`, `offline`, `down`) reads back as its state. |
| Inference.LabelInjective | app/core/inference.py:35-57 | Two states have the same text iff they are equal. |
| Inference.CheckNode | app/core/inference.py:18-59 | The report is never `down`. It is `ready` iff HTTP answered 200, `http_<code>` iff HTTP answered another code, `tcp_ok` iff HTTP did not answer and a TCP connection opened and closed cleanly, and `offline` otherwise. The latency is from the step that decided, and a failure keeps the latency already written. |
| Inference.HttpAnswerDecides | app/core/inference.py:29-41 | Once HTTP has answered, the TCP outcome does not matter. |
| Inference.LatencyKeptWhenCloseFails | app/core/inference.py:44-57 | A TCP connection whose close fails is `offline` and keeps the measured connect latency. |
| Inference.HttpLatencyKeptWhenExitFails | app/core/inference.py:31-41 | If the HTTP response context fails on exit, the reply is discarded, and an unreachable TCP port gives `offline` with the HTTP latency. |
| Inference.CheckNodeAsWritten | app/core/inference.py:18-24 | The call raises iff the node comes as a dict. An object node is reported as `CheckNode` reports it. |
| Inference.DictNodeNeverReports | app/core/inference.py:17-19 | A dict node under `retry_async(retries=1)` is called twice with a 1 s sleep between the calls and yields `None`. |
| Inference.ProbeNodeAsWritten | app/core/inference.py:17-24 | The retried probe as written yields `None` for a dict node. For an object node it yields the first probe's report. |
| Inference.CheckNodeEntry | app/core/inference.py:18-59 | Read by key, the check never raises. It reports the node's name and never leaves `down`. |
| Inference.ProbeNode | app/core/inference.py:17-18 | Read by key, the retried probe yields the first attempt's report. |
| Inference.GetSession | app/core/inference.py:8-13 | An open shared session is reused. A missing or closed one is replaced by a new session with limit 100 and a 300 s DNS cache, which becomes the shared one. The result is never closed. |
| Inference.SessionReused | app/core/inference.py:8-13 | A second call returns the same session and shared state as the first. |
| Collector.CollectDashboardAsWritten | app/core/collector.py:10-25 | One report per node, in node order. Dict nodes give `None` and object nodes give their first probe's report. `alerts` is empty. `servers` is the result of `get_hosts_metrics`. |
| Collector.ConfiguredNodesNeverReport | app/config.py:12-21 | With the five configured (dict) nodes, every inference report as written is `None`. |
| Collector.CollectDashboard | app/core/collector.py:10-25 | Corrected: report `i` is `CheckNode` of node `i` on its first probe. `alerts` is empty. `servers` is the result of `get_hosts_metrics`. |
| Collector.EveryNodeReported | app/core/collector.py:13-22 | In the corrected snapshot, every node has a report with its own name and URL, never `down`. |
| Collector.ObjectNodesAgree | app/core/collector.py:13-17 | The as-written and corrected snapshots agree on every node that is not a dict. |
| Collector.ProbeInOrder | app/core/collector.py:31-35 | Endpoints probed one after another, each seeing the registries the earlier probes left, give one report per endpoint. |
| Collector.ReportInOrder | app/core/collector.py:31-35 | For any probe, report `i` is endpoint `i`'s probe, run in the state the first `i` probes left. |
| Collector.PrefixStep | app/core/collector.py:31-35 | The registries after `k + 1` probes are those endpoint `k`'s probe leaves in the state after `k` probes. |
| Collector.PoolsGrowAfter | app/core/collector.py:31-35 | When no probe drops or replaces a pool, the pools after any `k` probes are all still present, unchanged, after the last one. |
| Collector.KeyKeptAfter | app/core/collector.py:31-35 | When each probe writes only under its own key, a key that no endpoint after the first `k` uses has the same pool and rate sample at the end as after `k` probes. |
| Collector.SlaveProbeLaws | app/core/db.py:13-15 | The replica probe never drops or replaces a pool, and writes the registries only under its own endpoint's key. |
| Collector.ProbeSlaves | app/core/collector.py:31-35 | There is one report per replica, and no pool present before the replica probes is dropped or replaced. |
| Collector.SlaveReport | app/core/collector.py:31-35 | Report `i` is `get_basic_status(slaves[i], "slave")`, run in the state the probes of replicas `0..i-1` left. It carries the replica's IP and role `slave`. |
| Collector.SlavePoolRegistered | app/core/collector.py:31-35 | A replica that reports connected has a pool for its endpoint once all replicas are probed. |
| Collector.UnusedKeysKept | app/core/collector.py:31-35 | An endpoint that no replica uses keeps its pool and its rate sample through the replica probes, present or absent. |
| Collector.SlaveSampleStored | app/core/collector.py:31-35 | A connected replica whose endpoint no later replica shares leaves its fresh rate sample: its query counter at its probe's time. |
| Collector.CheckDbSync | app/core/collector.py:28-36 | The primary report is `get_basic_status` of the primary with role `master` against the starting state. There is one replica report per replica. The replica probes keep every pool the primary's probe left. |
| Collector.MasterProbedFirst | app/core/collector.py:30-34 | The primary's report depends only on the starting state and its own replies, and never on the replicas. |
| Collector.MasterStateKept | app/core/collector.py:28-36 | A connected primary's pool survives the replica probes unchanged. When no replica shares its endpoint, its fresh rate sample survives too. |
| Collector.SlaveOrderKept | app/core/collector.py:31-35 | Replica reports are in configured order. Report `i` is replica `i`'s own `get_basic_status` with role `slave`, run in the state an overview of the first `i` replicas leaves. A connected one has a pool once the overview is done. |
| Collector.FirstSlaveAt | app/core/collector.py:46-49 | Returns the index of the first replica at the IP, or the count of replicas when there is none. |
| Collector.FindTarget | app/core/collector.py:42-49 | The primary wins when it matches. Otherwise the first matching replica is chosen. There is no target iff nothing matches. |
| Collector.GetDbDetails | app/core/collector.py:39-53 | An unknown host is answered iff no configuration matches, and then no pool is touched. Otherwise the reply is `get_details` of the matching configuration, its details and pools included. |
| Collector.ConfiguredServers | app/config.py:24-48 | With Zabbix enabled and the configured IP list, the snapshot has one server record per monitored IP. These include the primary, every replica and every inference node. |
| Collector.ConfiguredTargets | app/config.py:37-48 | With the configured hosts, `192.168.1.105` resolves to the second replica and `192.168.1.21` is unknown. |

## Left out

- Clocks and sleeps are inputs. The cache and the QPS sampler use whole seconds, and latencies use whole milliseconds.
  - Sub-second parts of `datetime` and `time.time()` are not modelled.
  - `Db.SampleQps` divides whole-second deltas. The source divides float seconds.
- Float arithmetic is not modelled: `round(..., 1)`, `round(.../1024/1024, 2)`, the `%.2f` hit-rate text and the float conversions of Zabbix values. They are represented by conversion functions passed in or by the exact ratio (`HitRate.Ratio`).
- Concurrency is not modelled.
  - `asyncio.gather` interleaving, the shared class-level pool registry under concurrent first use, and the double pool creation it allows are left out.
  - The replica probes of `check_db_sync` run one after another in configured order.
- SQL text and driver behaviour: the queries, `LIMIT 5`, and the dictionary cursor are not modelled. Their rows are inputs.
- Logging: the `[Warn]` print of `retry_async` and the structured log of the Zabbix failure are not modelled. They have no effect on results.
- The exceptions of a failed call are modelled by their message only. `BaseException` subclasses that bypass `except Exception` (cancellation) are not modelled.
- Failures while leaving the `pool.acquire()` / `conn.cursor()` contexts are not modelled. An exit failure after the last statement would set `error` on an otherwise complete record, which no modelled input produces.
- `check_node` does not thread the `get_session` state: `Inference.GetSession` is modelled on its own. The HTTP outcome stands for whatever the session request did.
- The `time` field of the dashboard snapshot is an input string. `strftime` is not modelled.
- The filters of the `host.get` and `item.get` requests are not modelled. These are the configured IPs, the resolved host ids and the four requested item keys. What the API answered is an input, and every returned item is dispatched by the substring rules of `Zabbix.Classify`.
- The order of keys in the Zabbix result dictionary is not modelled. The result is a map.
- The Zabbix API URL, user and password, the Flask settings, alert thresholds and other configuration not read by the core are not part of this model.
- `server_id` in the replica configuration is not read by the core and is not modelled.
- HTTP status codes are modelled as non-negative integers.

## Findings

| source | as written | input that shows it | evidently intended | confidence | as-written member | corrected member |
|---|---|---|---|---|---|---|
| app/core/utils.py:14 | The cache compares `timedelta.seconds`, the seconds part of the age without whole days, with the TTL. | An entry set at second 0 in the 15-second module cache, read at second 86405: it is served again. | Entries expire for good once their total age reaches the TTL. | high; not executed | Utils.Get, Utils.StaleEntryRevives | Utils.GetByTotalAge, Utils.TotalAgeExpiresForever |
| app/core/inference.py:19 | `check_node` reads `config.ip`, `config.port` and `config.name` as attributes, but every configured node (app/config.py:14-20) is a dict. The call raises before its `try` blocks. | Any configured node, e.g. `qwen-201-0123`: two attempts both raise, and the retry wrapper yields `None`. | Read the dict keys, so each node gets a report from its probes. | high; not executed | Inference.CheckNodeAsWritten, Inference.DictNodeNeverReports, Collector.ConfiguredNodesNeverReport | Inference.CheckNodeEntry, Inference.ProbeNode, Collector.CollectDashboard |

=== FILE: collector.dfy ===
/** The three entry points of `DataCollector`: the dashboard snapshot, the
    replication overview and the per-database details. Each combines the
    monitors of the other modules; their network replies are parameters. */
module Collector {
  import opened Wrappers
  import Inference
  import Zabbix
  import Db
  import Settings

  /** What the Zabbix half of a snapshot is computed from. */
  datatype ZabbixInputs = ZabbixInputs(
    enabled: bool,
    ips: seq<string>,
    api: Zabbix.ZabbixReplies,
    toFloat: string -> Option<real>,
    toInt: string -> Option<int>)

  /** The dashboard snapshot. `time` is the wall clock as `HH:MM:SS`, an
      input here. */
  datatype Snapshot = Snapshot(
    time: string,
    inference: seq<Option<Inference.NodeStatus>>,
    servers: map<string, Zabbix.HostRecord>,
    alerts: seq<string>)

  /** The `servers` section: the metrics bridge's answer. */
  function Servers(z: ZabbixInputs): map<string, Zabbix.HostRecord> {
    Zabbix.GetHostsMetrics(z.enabled, z.ips, z.api, z.toFloat, z.toInt)
  }

  /** `collect_dashboard_data` as written: each node is probed through the
      retry-wrapped `check_node`, which reads a dict-configured node's
      fields as attributes. The reports keep the node order and no alert is
      ever raised. */
  function CollectDashboardAsWritten(time: string, nodes: seq<Inference.NodeArg>,
                                     probes: seq<nat -> Inference.NodeProbe>, z: ZabbixInputs): (s: Snapshot)
    requires |probes| == |nodes|
    ensures |s.inference| == |nodes| && s.alerts == [] && s.time == time
    ensures forall i :: 0 <= i < |nodes| ==>
              s.inference[i] == if nodes[i].DictArg? then None
                                else Some(Inference.CheckNode(nodes[i].entry, probes[i](0)))
    ensures s.servers == Servers(z)
  {
    Snapshot(time,
             seq(|nodes|, i requires 0 <= i < |nodes| => Inference.ProbeNodeAsWritten(nodes[i], probes[i])),
             Servers(z),
             [])
  }

  /** With the configured nodes, every inference report of the snapshot as
      written is `None`. */
  lemma ConfiguredNodesNeverReport(time: string, probes: seq<nat -> Inference.NodeProbe>, z: ZabbixInputs)
    requires |probes| == |Settings.InferenceNodes|
    ensures var s := CollectDashboardAsWritten(time, Settings.InferenceNodes, probes, z);
            |s.inference| == 5 && forall i :: 0 <= i < |s.inference| ==> s.inference[i] == None
  {
  }

  /** `collect_dashboard_data` with each node's fields read as dict keys:
      node `i` is reported from the first probe of node `i`. */
  function CollectDashboard(time: string, nodes: seq<Inference.NodeArg>,
                            probes: seq<nat -> Inference.NodeProbe>, z: ZabbixInputs): (s: Snapshot)
    requires |probes| == |nodes|
    ensures |s.inference| == |nodes| && s.alerts == [] && s.time == time
    ensures forall i :: 0 <= i < |nodes| ==>
              s.inference[i] == Some(Inference.CheckNode(nodes[i].entry, probes[i](0)))
    ensures s.servers == Servers(z)
  {
    Snapshot(time,
             seq(|nodes|, i requires 0 <= i < |nodes| => Inference.ProbeNode(nodes[i], probes[i])),
             Servers(z),
             [])
  }

  /** Every node of the corrected snapshot carries a report naming it, in
      configured order, and none is left `down`. */
  lemma EveryNodeReported(time: string, nodes: seq<Inference.NodeArg>,
                          probes: seq<nat -> Inference.NodeProbe>, z: ZabbixInputs, i: nat)
    requires |probes| == |nodes| && i < |nodes|
    ensures var s := CollectDashboard(time, nodes, probes, z);
            && s.inference[i].Some?
            && s.inference[i].value.name == nodes[i].entry.name
            && s.inference[i].value.url == Inference.Endpoint(nodes[i].entry)
            && s.inference[i].value.state != Inference.Down
  {
  }

  /** The two readings differ only in the reports of dict-configured nodes. */
  lemma ObjectNodesAgree(time: string, nodes: seq<Inference.NodeArg>,
                         probes: seq<nat -> Inference.NodeProbe>, z: ZabbixInputs, i: nat)
    requires |probes| == |nodes| && i < |nodes| && nodes[i].ObjectArg?
    ensures CollectDashboardAsWritten(time, nodes, probes, z).inference[i]
            == CollectDashboard(time, nodes, probes, z).inference[i]
  {
  }

  const SlaveRole: string := "slave"

  datatype SlaveRuns = SlaveRuns(statuses: seq<Db.DbStatus>, state: Db.DbState)

  /** One endpoint's probe: its report and the registries it leaves. */
  type Probe = (Db.DbState, Db.DbConfig, Db.StatusReplies) -> Db.StatusRun

  /** The probe `check_db_sync` runs on each replica. */
  const SlaveProbe: Probe := (s: Db.DbState, c: Db.DbConfig, r: Db.StatusReplies) => Db.GetBasicStatus(s, c, SlaveRole, r)

  /** The probe never drops or replaces a pool. */
  ghost predicate GrowsPools(probe: Probe) {
    forall s: Db.DbState, c: Db.DbConfig, r: Db.StatusReplies :: Db.Extends(s.pools, probe(s, c, r).state.pools)
  }

  /** The probe writes the registries only under its own endpoint's key. */
  ghost predicate TouchesOwnKey(probe: Probe) {
    forall s: Db.DbState, c: Db.DbConfig, r: Db.StatusReplies, key: string :: key != Db.PoolKey(c) ==>
      && Db.SameEntry(s.pools, probe(s, c, r).state.pools, key)
      && Db.SameEntry(s.samples, probe(s, c, r).state.samples, key)
  }

  /** Endpoints probed one after another, in order, each probe seeing the
      registries the earlier ones left. */
  function ProbeInOrder(probe: Probe, st: Db.DbState, confs: seq<Db.DbConfig>, replies: seq<Db.StatusReplies>)
    : (out: SlaveRuns)
    requires |replies| == |confs|
    ensures |out.statuses| == |confs|
    decreases |confs|
  {
    if confs == [] then SlaveRuns([], st)
    else
      var n := |confs| - 1;
      var before := ProbeInOrder(probe, st, confs[..n], replies[..n]);
      var last := probe(before.state, confs[n], replies[n]);
      SlaveRuns(before.statuses + [last.status], last.state)
  }

  /** Report `i` is endpoint `i`'s probe, run in the state the first `i`
      probes left. */
  lemma {:induction false} ReportInOrder(probe: Probe, st: Db.DbState, confs: seq<Db.DbConfig>,
                                         replies: seq<Db.StatusReplies>, i: nat)
    requires |replies| == |confs| && i < |confs|
    ensures ProbeInOrder(probe, st, confs, replies).statuses[i]
            == probe(ProbeInOrder(probe, st, confs[..i], replies[..i]).state, confs[i], replies[i]).status
    decreases |confs|
  {
    var n := |confs| - 1;
    var before := ProbeInOrder(probe, st, confs[..n], replies[..n]);
    var last := probe(before.state, confs[n], replies[n]);
    if i < n {
      ReportInOrder(probe, st, confs[..n], replies[..n], i);
      assert (before.statuses + [last.status])[i] == before.statuses[i];
      assert confs[..n][i] == confs[i] && replies[..n][i] == replies[i];
      assert confs[..n][..i] == confs[..i] && replies[..n][..i] == replies[..i];
    } else {
      assert (before.statuses + [last.status])[i] == last.status;
    }
  }

  /** The registries after `k + 1` probes are those the probe of endpoint
      `k` leaves in the state after `k`. */
  lemma PrefixStep(probe: Probe, st: Db.DbState, confs: seq<Db.DbConfig>, replies: seq<Db.StatusReplies>, k: nat)
    requires |replies| == |confs| && k < |confs|
    ensures ProbeInOrder(probe, st, confs[..k + 1], replies[..k + 1]).state
            == probe(ProbeInOrder(probe, st, confs[..k], replies[..k]).state, confs[k], replies[k]).state
  {
    assert confs[..k + 1][..k] == confs[..k] && replies[..k + 1][..k] == replies[..k];
    assert confs[..k + 1][k] == confs[k] && replies[..k + 1][k] == replies[k];
  }

  /** Pools only grow from the state after the first `k` probes to the
      final one. */
  lemma {:induction false} PoolsGrowAfter(probe: Probe, st: Db.DbState, confs: seq<Db.DbConfig>,
                                          replies: seq<Db.StatusReplies>, k: nat)
    requires |replies| == |confs| && k <= |confs| && GrowsPools(probe)
    ensures Db.Extends(ProbeInOrder(probe, st, confs[..k], replies[..k]).state.pools,
                       ProbeInOrder(probe, st, confs, replies).state.pools)
    decreases |confs|
  {
    if k < |confs| {
      var n := |confs| - 1;
      PoolsGrowAfter(probe, st, confs[..n], replies[..n], k);
      assert confs[..n][..k] == confs[..k] && replies[..n][..k] == replies[..k];
      var before := ProbeInOrder(probe, st, confs[..n], replies[..n]);
      assert Db.Extends(before.state.pools, probe(before.state, confs[n], replies[n]).state.pools);
    } else {
      assert confs[..k] == confs && replies[..k] == replies;
    }
  }

  /** A key that no endpoint after the first `k` uses keeps, to the end,
      the pool and the sample it had after the first `k` probes. */
  lemma {:induction false} KeyKeptAfter(probe: Probe, st: Db.DbState, confs: seq<Db.DbConfig>,
                                        replies: seq<Db.StatusReplies>, k: nat, key: string)
    requires |replies| == |confs| && k <= |confs| && TouchesOwnKey(probe)
    requires forall j :: k <= j < |confs| ==> Db.PoolKey(confs[j]) != key
    ensures var mid := ProbeInOrder(probe, st, confs[..k], replies[..k]).state;
            var out := ProbeInOrder(probe, st, confs, replies).state;
            Db.SameEntry(mid.pools, out.pools, key) && Db.SameEntry(mid.samples, out.samples, key)
    decreases |confs|
  {
    if k < |confs| {
      var n := |confs| - 1;
      forall j | k <= j < n ensures Db.PoolKey(confs[..n][j]) != key {
        assert confs[..n][j] == confs[j];
      }
      KeyKeptAfter(probe, st, confs[..n], replies[..n], k, key);
      assert confs[..n][..k] == confs[..k] && replies[..n][..k] == replies[..k];
      var before := ProbeInOrder(probe, st, confs[..n], replies[..n]);
      var after := probe(before.state, confs[n], replies[n]).state;
      assert Db.SameEntry(before.state.pools, after.pools, key) && Db.SameEntry(before.state.samples, after.samples, key);
    } else {
      assert confs[..k] == confs && replies[..k] == replies;
    }
  }

  /** The replica probe only adds pools, and only under its own key. */
  lemma SlaveProbeLaws()
    ensures GrowsPools(SlaveProbe) && TouchesOwnKey(SlaveProbe)
  {
    forall s: Db.DbState, c: Db.DbConfig, r: Db.StatusReplies
      ensures Db.Extends(s.pools, SlaveProbe(s, c, r).state.pools)
    {
      assert SlaveProbe(s, c, r) == Db.GetBasicStatus(s, c, SlaveRole, r);
    }
    forall s: Db.DbState, c: Db.DbConfig, r: Db.StatusReplies, key: string | key != Db.PoolKey(c)
      ensures && Db.SameEntry(s.pools, SlaveProbe(s, c, r).state.pools, key)
              && Db.SameEntry(s.samples, SlaveProbe(s, c, r).state.samples, key)
    {
      assert SlaveProbe(s, c, r) == Db.GetBasicStatus(s, c, SlaveRole, r);
      Db.ProbeTouchesOwnKey(s, c, SlaveRole, r, key);
    }
  }

  /** The replicas probed one after another, each seeing the pools and rate
      samples the earlier probes left. */
  function ProbeSlaves(st: Db.DbState, slaves: seq<Db.DbConfig>, replies: seq<Db.StatusReplies>): (out: SlaveRuns)
    requires |replies| == |slaves|
    ensures |out.statuses| == |slaves|
    ensures Db.Extends(st.pools, out.state.pools)
  {
    SlaveProbeLaws();
    PoolsGrowAfter(SlaveProbe, st, slaves, replies, 0);
    assert slaves[..0] == [] && replies[..0] == [];
    ProbeInOrder(SlaveProbe, st, slaves, replies)
  }

  /** Replica `i` is reported at position `i`: its report is its own probe
      with the replica role, run in the state the probes of the replicas
      before it left. */
  lemma SlaveReport(st: Db.DbState, slaves: seq<Db.DbConfig>, replies: seq<Db.StatusReplies>, i: nat)
    requires |replies| == |slaves| && i < |slaves|
    ensures var out := ProbeSlaves(st, slaves, replies);
            && out.statuses[i].ip == slaves[i].ip
            && out.statuses[i].role == SlaveRole
            && out.statuses[i]
               == Db.GetBasicStatus(ProbeSlaves(st, slaves[..i], replies[..i]).state, slaves[i], SlaveRole, replies[i]).status
  {
    ReportInOrder(SlaveProbe, st, slaves, replies, i);
    var mid := ProbeSlaves(st, slaves[..i], replies[..i]).state;
    assert SlaveProbe(mid, slaves[i], replies[i]) == Db.GetBasicStatus(mid, slaves[i], SlaveRole, replies[i]);
  }

  /** A replica that reports connected has a pool registered for its
      endpoint once all replicas are probed. */
  lemma SlavePoolRegistered(st: Db.DbState, slaves: seq<Db.DbConfig>, replies: seq<Db.StatusReplies>, i: nat)
    requires |replies| == |slaves| && i < |slaves|
    ensures var out := ProbeSlaves(st, slaves, replies);
            out.statuses[i].connected ==> Db.PoolKey(slaves[i]) in out.state.pools
  {
    var mid := ProbeSlaves(st, slaves[..i], replies[..i]).state;
    if ProbeSlaves(st, slaves, replies).statuses[i].connected {
      SlaveReport(st, slaves, replies, i);
      Db.ConnectedProbeStores(mid, slaves[i], SlaveRole, replies[i]);
      PrefixStep(SlaveProbe, st, slaves, replies, i);
      assert SlaveProbe(mid, slaves[i], replies[i]) == Db.GetBasicStatus(mid, slaves[i], SlaveRole, replies[i]);
      SlaveProbeLaws();
      PoolsGrowAfter(SlaveProbe, st, slaves, replies, i + 1);
    }
  }

  /** An endpoint no replica uses keeps its pool and its rate sample through
      the replica probes. */
  lemma UnusedKeysKept(st: Db.DbState, slaves: seq<Db.DbConfig>, replies: seq<Db.StatusReplies>, key: string)
    requires |replies| == |slaves|
    requires forall j :: 0 <= j < |slaves| ==> Db.PoolKey(slaves[j]) != key
    ensures var out := ProbeSlaves(st, slaves, replies).state;
            Db.SameEntry(st.pools, out.pools, key) && Db.SameEntry(st.samples, out.samples, key)
  {
    SlaveProbeLaws();
    KeyKeptAfter(SlaveProbe, st, slaves, replies, 0, key);
    assert slaves[..0] == [] && replies[..0] == [];
  }

  /** A replica that reports connected leaves its fresh rate sample for the
      next poll, unless a later replica shares its endpoint and overwrites
      it. */
  lemma SlaveSampleStored(st: Db.DbState, slaves: seq<Db.DbConfig>, replies: seq<Db.StatusReplies>, i: nat)
    requires |replies| == |slaves| && i < |slaves|
    requires ProbeSlaves(st, slaves, replies).statuses[i].connected
    requires forall j :: i < j < |slaves| ==> Db.PoolKey(slaves[j]) != Db.PoolKey(slaves[i])
    ensures var out := ProbeSlaves(st, slaves, replies).state;
            var key := Db.PoolKey(slaves[i]);
            && replies[i].queries.Returned?
            && key in out.samples && out.samples[key] == Db.QpsSample(replies[i].now, replies[i].queries.value)
  {
    var mid := ProbeSlaves(st, slaves[..i], replies[..i]).state;
    SlaveReport(st, slaves, replies, i);
    Db.ConnectedProbeStores(mid, slaves[i], SlaveRole, replies[i]);
    PrefixStep(SlaveProbe, st, slaves, replies, i);
    assert SlaveProbe(mid, slaves[i], replies[i]) == Db.GetBasicStatus(mid, slaves[i], SlaveRole, replies[i]);
    SlaveProbeLaws();
    KeyKeptAfter(SlaveProbe, st, slaves, replies, i + 1, Db.PoolKey(slaves[i]));
  }

  datatype SyncReport = SyncReport(master: Db.DbStatus, slaves: seq<Db.DbStatus>)

  datatype SyncRun = SyncRun(report: SyncReport, state: Db.DbState)

  /** `check_db_sync`: the primary is probed first, then the replicas in
      configured order. */
  function CheckDbSync(st: Db.DbState, master: Db.DbConfig, slaves: seq<Db.DbConfig>,
                       masterReplies: Db.StatusReplies, slaveReplies: seq<Db.StatusReplies>): (out: SyncRun)
    requires |slaveReplies| == |slaves|
    ensures out.report.master.ip == master.ip && out.report.master.role == Db.MasterRole
    ensures out.report.master == Db.GetBasicStatus(st, master, Db.MasterRole, masterReplies).status
    ensures |out.report.slaves| == |slaves|
    ensures Db.Extends(st.pools, out.state.pools)
    ensures Db.Extends(Db.GetBasicStatus(st, master, Db.MasterRole, masterReplies).state.pools, out.state.pools)
  {
    var m := Db.GetBasicStatus(st, master, Db.MasterRole, masterReplies);
    var s := ProbeSlaves(m.state, slaves, slaveReplies);
    SyncRun(SyncReport(m.status, s.statuses), s.state)
  }

  /** The primary's report depends only on the starting state and its own
      replies, never on the replicas. */
  lemma MasterProbedFirst(st: Db.DbState, master: Db.DbConfig,
                          slaves1: seq<Db.DbConfig>, replies1: seq<Db.StatusReplies>,
                          slaves2: seq<Db.DbConfig>, replies2: seq<Db.StatusReplies>,
                          masterReplies: Db.StatusReplies)
    requires |replies1| == |slaves1| && |replies2| == |slaves2|
    ensures CheckDbSync(st, master, slaves1, masterReplies, replies1).report.master
            == CheckDbSync(st, master, slaves2, masterReplies, replies2).report.master
  {
  }

  /** A connected primary leaves its pool, and its fresh rate sample unless
      a replica shares its endpoint, for the next poll. */
  lemma MasterStateKept(st: Db.DbState, master: Db.DbConfig, slaves: seq<Db.DbConfig>,
                        masterReplies: Db.StatusReplies, slaveReplies: seq<Db.StatusReplies>)
    requires |slaveReplies| == |slaves|
    requires Db.GetBasicStatus(st, master, Db.MasterRole, masterReplies).status.connected
    ensures var m := Db.GetBasicStatus(st, master, Db.MasterRole, masterReplies).state;
            var out := CheckDbSync(st, master, slaves, masterReplies, slaveReplies).state;
            var key := Db.PoolKey(master);
            && key in m.pools && key in out.pools && out.pools[key] == m.pools[key]
            && masterReplies.queries.Returned?
            && ((forall j :: 0 <= j < |slaves| ==> Db.PoolKey(slaves[j]) != key) ==>
                  key in out.samples && out.samples[key] == Db.QpsSample(masterReplies.now, masterReplies.queries.value))
  {
    var m := Db.GetBasicStatus(st, master, Db.MasterRole, masterReplies);
    var key := Db.PoolKey(master);
    if forall j :: 0 <= j < |slaves| ==> Db.PoolKey(slaves[j]) != key {
      UnusedKeysKept(m.state, slaves, slaveReplies, key);
    }
  }

  /** The replicas are reported in configured order: report `i` is replica
      `i`'s own probe with the replica role, run in the state an overview of
      the first `i` replicas leaves. One that reports connected has a pool
      registered for its endpoint once the overview is done. */
  lemma SlaveOrderKept(st: Db.DbState, master: Db.DbConfig, slaves: seq<Db.DbConfig>,
                       masterReplies: Db.StatusReplies, slaveReplies: seq<Db.StatusReplies>, i: nat)
    requires |slaveReplies| == |slaves| && i < |slaves|
    ensures var out := CheckDbSync(st, master, slaves, masterReplies, slaveReplies);
            && out.report.slaves[i].ip == slaves[i].ip
            && out.report.slaves[i].role == SlaveRole
            && (out.report.slaves[i].connected ==> Db.PoolKey(slaves[i]) in out.state.pools)
            && out.report.slaves[i]
               == Db.GetBasicStatus(CheckDbSync(st, master, slaves[..i], masterReplies, slaveReplies[..i]).state,
                                    slaves[i], SlaveRole, slaveReplies[i]).status
  {
    var m := Db.GetBasicStatus(st, master, Db.MasterRole, masterReplies);
    SlaveReport(m.state, slaves, slaveReplies, i);
    SlavePoolRegistered(m.state, slaves, slaveReplies, i);
  }

  /** Index of the first replica at `ip`, or `|slaves|` when there is none. */
  function FirstSlaveAt(slaves: seq<Db.DbConfig>, ip: string): (k: nat)
    ensures k <= |slaves|
    ensures forall j :: 0 <= j < k ==> slaves[j].ip != ip
    ensures k < |slaves| ==> slaves[k].ip == ip
  {
    if slaves == [] then 0
    else if slaves[0].ip == ip then 0
    else 1 + FirstSlaveAt(slaves[1..], ip)
  }

  /** The configuration `get_db_details` looks up for `ip`: the primary when
      it matches, else the first matching replica. */
  function FindTarget(master: Db.DbConfig, slaves: seq<Db.DbConfig>, ip: string): (r: Option<Db.DbConfig>)
    ensures master.ip == ip ==> r == Some(master)
    ensures r.None? <==> master.ip != ip && forall j :: 0 <= j < |slaves| ==> slaves[j].ip != ip
    ensures r.Some? && master.ip != ip ==>
              exists k :: 0 <= k < |slaves| && r.value == slaves[k] && slaves[k].ip == ip
                          && forall j :: 0 <= j < k ==> slaves[j].ip != ip
  {
    if master.ip == ip then Some(master)
    else
      var k := FirstSlaveAt(slaves, ip);
      if k < |slaves| then Some(slaves[k]) else None
  }

  /** The reply of `get_db_details`. */
  datatype DetailsReply = Found(details: Db.Details) | UnknownHost

  datatype DetailsLookup = DetailsLookup(reply: DetailsReply, pools: map<string, Db.Pool>)

  /** `get_db_details`: an unknown IP is answered without touching any
      database; a known one gets the details of its configuration. */
  function GetDbDetails(pools: map<string, Db.Pool>, master: Db.DbConfig, slaves: seq<Db.DbConfig>,
                        ip: string, replies: Db.DetailReplies): (r: DetailsLookup)
    ensures r.reply.UnknownHost? <==> FindTarget(master, slaves, ip).None?
    ensures r.reply.UnknownHost? ==> r.pools == pools
    ensures r.reply.Found? ==>
              var conf := FindTarget(master, slaves, ip).value;
              && conf.ip == ip
              && r.reply.details.error.None? == Db.DetailPassed(pools, conf, replies, 7)
              && r.pools == Db.GetPool(pools, conf, replies.newPool).pools
    ensures r.reply.Found? ==>
              r.reply.details == Db.GetDetails(pools, FindTarget(master, slaves, ip).value, replies).details
  {
    match FindTarget(master, slaves, ip)
    case None => DetailsLookup(UnknownHost, pools)
    case Some(conf) =>
      var run := Db.GetDetails(pools, conf, replies);
      DetailsLookup(Found(run.details), run.pools)
  }

  /** With the configured Zabbix settings the snapshot lists one server
      record per monitored IP, and these include every database host and
      every inference node. */
  lemma ConfiguredServers(password: string, api: Zabbix.ZabbixReplies,
                          toFloat: string -> Option<real>, toInt: string -> Option<int>)
    ensures var servers := Servers(ZabbixInputs(Settings.ZabbixEnabled, Settings.MonitorIps, api, toFloat, toInt));
            && servers.Keys == Zabbix.Monitored(Settings.MonitorIps)
            && Settings.Master(password).ip in servers
            && (forall j :: 0 <= j < |Settings.Slaves(password)| ==> Settings.Slaves(password)[j].ip in servers)
            && (forall j :: 0 <= j < |Settings.InferenceNodes| ==> Settings.InferenceNodes[j].entry.ip in servers)
  {
  }

  /** With the configured hosts, a replica's IP is resolved to that replica
      and an IP outside the configuration is unknown. */
  lemma ConfiguredTargets(password: string)
    ensures FindTarget(Settings.Master(password), Settings.Slaves(password), "192.168.1.105")
            == Some(Settings.Slaves(password)[1])
    ensures FindTarget(Settings.Master(password), Settings.Slaves(password), "192.168.1.21") == None
  {
  }
}

=== FILE: db.dfy ===
/** The decision rules of `app/core/db.py`: the connection-pool registry,
    the QPS rate sampler, and the two probes `get_basic_status` and
    `get_details`. The driver is not modelled: what each pool creation,
    connection acquisition and statement did (returned or raised) is an
    input, and the process-wide registries are an explicit state threaded
    through the probes. */
module Db {
  import opened Wrappers
  import opened Text
  import Uptime
  import Utils

  /** One MySQL endpoint as configured. */
  datatype DbConfig = DbConfig(ip: string, port: nat, user: string, password: string)

  // ---------------------------------------------------------------------
  // DBPoolManager.get_pool

  const ConnectTimeout: nat := 3
  const PoolMinSize: nat := 1
  const PoolMaxSize: nat := 5

  /** The arguments every pool is created with. */
  datatype PoolSettings = PoolSettings(
    host: string, port: nat, user: string, password: string,
    connectTimeout: nat, minSize: nat, maxSize: nat, autocommit: bool)

  /** A created pool: the driver's handle for it and how it was created. */
  datatype Pool = Pool(handle: nat, settings: PoolSettings)

  /** The IP, a colon and the decimal port: the key of both the pool registry and the QPS samples. */
  function PoolKey(conf: DbConfig): string {
    HostPort(conf.ip, conf.port)
  }

  /** The key names the endpoint exactly: even an address that itself holds
      a colon cannot collide with another address and port, because the
      port's digits never do. */
  lemma PoolKeyIdentifiesEndpoint(a: DbConfig, b: DbConfig)
    ensures PoolKey(a) == PoolKey(b) <==> a.ip == b.ip && a.port == b.port
  {
    if PoolKey(a) == PoolKey(b) {
      DigitsExclude(NatToString(a.port), ':');
      DigitsExclude(NatToString(b.port), ':');
      SplitAtLast(a.ip, NatToString(a.port), b.ip, NatToString(b.port), ':');
      NatToStringInjective(a.port, b.port);
    }
  }

  function SettingsFor(conf: DbConfig): (s: PoolSettings)
    ensures s.host == conf.ip && s.port == conf.port
    ensures s.user == conf.user && s.password == conf.password
    ensures s.minSize == 1 && s.maxSize == 5 && s.connectTimeout == 3 && s.autocommit
  {
    PoolSettings(conf.ip, conf.port, conf.user, conf.password, ConnectTimeout, PoolMinSize, PoolMaxSize, true)
  }

  /** `next` keeps every entry of `prev`: registries only grow. */
  ghost predicate Extends<V>(prev: map<string, V>, next: map<string, V>) {
    && prev.Keys <= next.Keys
    && forall k :: k in prev ==> next[k] == prev[k]
  }

  /** `a` and `b` agree on `key`: both lack it, or both map it alike. */
  ghost predicate SameEntry<V>(a: map<string, V>, b: map<string, V>, key: string) {
    && (key in a <==> key in b)
    && (key in a ==> a[key] == b[key])
  }

  datatype PoolLookup = PoolLookup(pools: map<string, Pool>, pool: Attempt<Pool>)

  /** Lookup-or-create: an existing pool for the key is returned and the
      driver is not asked; otherwise the driver's outcome for
      `create_pool` (`create`) decides, and only a created pool is stored. */
  function GetPool(pools: map<string, Pool>, conf: DbConfig, create: Attempt<nat>): (r: PoolLookup)
    ensures Extends(pools, r.pools)
    ensures PoolKey(conf) in pools ==> r == PoolLookup(pools, Returned(pools[PoolKey(conf)]))
    ensures PoolKey(conf) !in pools && create.Raised? ==> r == PoolLookup(pools, Raised(create.error))
    ensures PoolKey(conf) !in pools && create.Returned? ==>
              && r.pool == Returned(Pool(create.value, SettingsFor(conf)))
              && r.pools.Keys == pools.Keys + {PoolKey(conf)}
    ensures r.pool.Returned? ==> PoolKey(conf) in r.pools && r.pools[PoolKey(conf)] == r.pool.value
  {
    var key := PoolKey(conf);
    if key in pools then PoolLookup(pools, Returned(pools[key]))
    else match create
      case Raised(e) => PoolLookup(pools, Raised(e))
      case Returned(h) =>
        var p := Pool(h, SettingsFor(conf));
        PoolLookup(pools[key := p], Returned(p))
  }

  /** Configurations with the same address and port share one pool whatever
      their credentials: once the first has a pool, the second gets that very
      pool and nothing is created. */
  lemma EndpointSharesPool(pools: map<string, Pool>, first: DbConfig, second: DbConfig,
                           create1: Attempt<nat>, create2: Attempt<nat>)
    requires first.ip == second.ip && first.port == second.port
    requires GetPool(pools, first, create1).pool.Returned?
    ensures var r1 := GetPool(pools, first, create1);
            GetPool(r1.pools, second, create2) == PoolLookup(r1.pools, r1.pool)
  {
  }

  /** Looking up one endpoint never touches the pool of another. */
  lemma OtherEndpointsUntouched(pools: map<string, Pool>, conf: DbConfig, other: DbConfig, create: Attempt<nat>)
    requires conf.ip != other.ip || conf.port != other.port
    ensures var r := GetPool(pools, conf, create);
            (PoolKey(other) in r.pools <==> PoolKey(other) in pools)
            && (PoolKey(other) in pools ==> r.pools[PoolKey(other)] == pools[PoolKey(other)])
  {
    PoolKeyIdentifiesEndpoint(conf, other);
  }

  // ---------------------------------------------------------------------
  // _qps_cache

  datatype QpsSample = QpsSample(ts: int, count: int)

  /** `q` is `a / b` rounded toward zero, as Python's `int(a / b)` gives it. */
  ghost predicate TruncQuotient(q: int, a: int, b: int)
    requires b > 0
  {
    && (a >= 0 ==> 0 <= q && q * b <= a < (q + 1) * b)
    && (a < 0 ==> q <= 0 && (q - 1) * b < a <= q * b)
  }

  function TruncDiv(a: int, b: int): (q: int)
    requires b > 0
    ensures TruncQuotient(q, a, b)
  {
    if a >= 0 then a / b else -((-a) / b)
  }

  datatype Sampled = Sampled(qps: int, samples: map<string, QpsSample>)

  /** One QPS sample: with an earlier sample for the key and a positive
      elapsed time the rate is the counter delta over the elapsed time,
      rounded toward zero; otherwise it stays 0. The stored sample is
      overwritten every time. */
  function SampleQps(samples: map<string, QpsSample>, key: string, now: int, count: int): (r: Sampled)
    ensures r.samples == samples[key := QpsSample(now, count)]
    ensures key !in samples ==> r.qps == 0
    ensures key in samples && now <= samples[key].ts ==> r.qps == 0
    ensures key in samples && now > samples[key].ts ==>
              TruncQuotient(r.qps, count - samples[key].count, now - samples[key].ts)
  {
    var qps :=
      if key in samples && now - samples[key].ts > 0
      then TruncDiv(count - samples[key].count, now - samples[key].ts)
      else 0;
    Sampled(qps, samples[key := QpsSample(now, count)])
  }

  /** The rounded-toward-zero quotient is unique, so the contract of
      `SampleQps` fixes its rate. */
  lemma TruncQuotientUnique(q1: int, q2: int, a: int, b: int)
    requires b > 0
    requires TruncQuotient(q1, a, b) && TruncQuotient(q2, a, b)
    ensures q1 == q2
  {
    if q1 < q2 {
      MulMonotonic(q1 + 1, q2, b);
      MulMonotonic(q1, q2 - 1, b);
    } else if q2 < q1 {
      MulMonotonic(q2 + 1, q1, b);
      MulMonotonic(q2, q1 - 1, b);
    }
  }

  lemma MulMonotonic(x: int, y: int, b: int)
    requires x <= y && b > 0
    ensures x * b <= y * b
  {
  }

  /** A counter going from 1000 to 1600 over 30 seconds reads as 20 queries
      per second; the first sample of a key reads as 0. */
  lemma QpsExample(key: string)
    ensures var first := SampleQps(map[], key, 100, 1000);
            && first.qps == 0
            && SampleQps(first.samples, key, 130, 1600).qps == 20
  {
  }

  /** No clamping: a counter that went down (a server restart) gives a
      negative rate. */
  lemma CounterResetGivesNegativeRate(key: string)
    ensures SampleQps(map[key := QpsSample(0, 5000)], key, 10, 100).qps == -490
  {
  }

  // ---------------------------------------------------------------------
  // DBMonitor.get_basic_status

  const MasterRole: string := "master"

  /** The result dictionary of `get_basic_status`. Fields the source fills
      from a row with `dict.get` may hold `None`, hence the options. */
  datatype DbStatus = DbStatus(
    ip: string, role: string, connected: bool,
    version: string, uptime: string, connCurr: int, connMax: int, qps: int,
    io: Option<string>, sql: Option<string>, delay: int, error: Option<string>,
    file: Option<string>, pos: Option<int>, gtid: string,
    readPos: Option<int>, execPos: Option<int>)

  function DefaultStatus(ip: string, role: string): (s: DbStatus)
    ensures s.ip == ip && s.role == role && !s.connected && s.error == None
    ensures s.version == "" && s.uptime == "" && s.connCurr == 0 && s.connMax == 0 && s.qps == 0
    ensures ReplicationDefaults(s)
  {
    DbStatus(ip, role, false, "", "", 0, 0, 0, Some("No"), Some("No"), -1, None,
             Some(""), Some(0), "", Some(0), Some(0))
  }

  /** The replication fields hold their initial values. */
  ghost predicate ReplicationDefaults(s: DbStatus) {
    && s.io == Some("No") && s.sql == Some("No") && s.delay == -1
    && s.file == Some("") && s.pos == Some(0) && s.gtid == ""
    && s.readPos == Some(0) && s.execPos == Some(0)
  }

  /** The fields the replication branch never writes. */
  ghost predicate SameBasics(a: DbStatus, b: DbStatus) {
    && a.ip == b.ip && a.role == b.role && a.connected == b.connected
    && a.version == b.version && a.uptime == b.uptime
    && a.connCurr == b.connCurr && a.connMax == b.connMax && a.qps == b.qps
  }

  /** The row of `SHOW MASTER STATUS`. */
  datatype MasterRow = MasterRow(file: Option<string>, position: Option<int>)

  /** The columns of `SHOW SLAVE STATUS` the probe reads; `None` is a
      missing column or SQL NULL. */
  datatype SlaveRow = SlaveRow(
    ioRunning: Option<string>, sqlRunning: Option<string>, secondsBehind: Option<int>,
    lastSqlError: Option<string>, lastIoError: Option<string>,
    masterLogFile: Option<string>, readPos: Option<int>, execPos: Option<int>,
    retrievedGtid: Option<string>, executedGtid: Option<string>)

  /** `Retrieved_Gtid_Set or Executed_Gtid_Set or "OFF"`. */
  function GtidOf(s: SlaveRow): (g: string)
    ensures g != ""
    ensures Truthy(s.retrievedGtid) ==> g == s.retrievedGtid.value
    ensures !Truthy(s.retrievedGtid) && Truthy(s.executedGtid) ==> g == s.executedGtid.value
    ensures !Truthy(s.retrievedGtid) && !Truthy(s.executedGtid) ==> g == "OFF"
  {
    if Truthy(s.retrievedGtid) then s.retrievedGtid.value
    else if Truthy(s.executedGtid) then s.executedGtid.value
    else "OFF"
  }

  /** Copies a replica's status row into the result. */
  function ApplySlaveRow(res: DbStatus, s: SlaveRow): (r: DbStatus)
    ensures SameBasics(res, r)
    ensures r.io == s.ioRunning && r.sql == s.sqlRunning
    ensures s.secondsBehind.None? ==> r.delay == -1
    ensures s.secondsBehind.Some? ==> r.delay == s.secondsBehind.value
    ensures Truthy(s.lastSqlError) ==> r.error == s.lastSqlError
    ensures !Truthy(s.lastSqlError) ==> r.error == s.lastIoError
    ensures Truthy(r.error) <==> Truthy(s.lastSqlError) || Truthy(s.lastIoError)
    ensures r.gtid != ""
    ensures r.file == s.masterLogFile && r.readPos == s.readPos && r.execPos == s.execPos
    ensures r.pos == res.pos
  {
    res.(io := s.ioRunning, sql := s.sqlRunning,
         delay := if s.secondsBehind.Some? then s.secondsBehind.value else -1,
         error := OrElse(s.lastSqlError, s.lastIoError),
         file := s.masterLogFile, readPos := s.readPos, execPos := s.execPos,
         gtid := GtidOf(s))
  }

  function Failed(res: DbStatus, e: string): DbStatus {
    res.(error := Some(e))
  }

  /** The `role == "master"` branch. */
  function MasterBranch(res: DbStatus, row: Attempt<Option<MasterRow>>): (r: DbStatus)
    ensures SameBasics(res, r)
    ensures r.io == res.io && r.sql == res.sql && r.delay == res.delay && r.gtid == res.gtid
    ensures r.readPos == res.readPos && r.execPos == res.execPos
    ensures row.Raised? ==> r.error == Some(row.error) && r.file == res.file && r.pos == res.pos
    ensures row.Returned? ==> r.error == res.error
    ensures row == Returned(None) ==> r == res
    ensures row.Returned? && row.value.Some? ==>
              r.file == row.value.value.file && r.pos == row.value.value.position
  {
    match row
    case Raised(e) => Failed(res, e)
    case Returned(None) => res
    case Returned(Some(m)) => res.(file := m.file, pos := m.position)
  }

  /** The branch every other role takes. */
  function SlaveBranch(res: DbStatus, row: Attempt<Option<SlaveRow>>): (r: DbStatus)
    ensures SameBasics(res, r)
    ensures row.Raised? ==> r == res.(error := Some(row.error))
    ensures row == Returned(None) ==> r == res
    ensures row.Returned? && row.value.Some? ==>
              var s := row.value.value;
              && r.io == s.ioRunning && r.sql == s.sqlRunning
              && r.file == s.masterLogFile && r.readPos == s.readPos && r.execPos == s.execPos
              && r.pos == res.pos && r.gtid == GtidOf(s)
  {
    match row
    case Raised(e) => Failed(res, e)
    case Returned(None) => res
    case Returned(Some(s)) => ApplySlaveRow(res, s)
  }

  /** What the driver did for each step of one `get_basic_status` call, and
      the clock reading `time.time()` gave. Each statement's outcome
      includes fetching the row and converting its `Value` with `int`. */
  datatype StatusReplies = StatusReplies(
    newPool: Attempt<nat>,
    acquire: Attempt<()>,
    version: Attempt<string>,
    threadsConnected: Attempt<int>,
    maxConnections: Attempt<int>,
    uptime: Attempt<int>,
    queries: Attempt<int>,
    now: int,
    masterRow: Attempt<Option<MasterRow>>,
    slaveRow: Attempt<Option<SlaveRow>>)

  /** The process-wide registries: `DBPoolManager._pools` and `_qps_cache`. */
  datatype DbState = DbState(pools: map<string, Pool>, samples: map<string, QpsSample>)

  datatype StatusRun = StatusRun(status: DbStatus, state: DbState)

  /** The first `k` steps of the probe succeeded: 1 pool, 2 connection,
      3 version, 4 thread count, 5 connection limit, 6 uptime, 7 query counter. */
  ghost predicate StatusPassed(st: DbState, conf: DbConfig, r: StatusReplies, k: nat) {
    && (k >= 1 ==> PoolKey(conf) in st.pools || r.newPool.Returned?)
    && (k >= 2 ==> r.acquire.Returned?)
    && (k >= 3 ==> r.version.Returned?)
    && (k >= 4 ==> r.threadsConnected.Returned?)
    && (k >= 5 ==> r.maxConnections.Returned?)
    && (k >= 6 ==> r.uptime.Returned?)
    && (k >= 7 ==> r.queries.Returned?)
  }

  /** The message of the first step, in step order, that raised; it is
      what `str(e)` gives for the exception that ends the probe. */
  ghost function FirstStatusError(st: DbState, conf: DbConfig, r: StatusReplies): string
    requires !StatusPassed(st, conf, r, 7)
  {
    if !StatusPassed(st, conf, r, 1) then r.newPool.error
    else if !StatusPassed(st, conf, r, 2) then r.acquire.error
    else if !StatusPassed(st, conf, r, 3) then r.version.error
    else if !StatusPassed(st, conf, r, 4) then r.threadsConnected.error
    else if !StatusPassed(st, conf, r, 5) then r.maxConnections.error
    else if !StatusPassed(st, conf, r, 6) then r.uptime.error
    else r.queries.error
  }

  /** `get_basic_status`: never raises. An exception at any step lands in
      `error`; the fields assigned before it keep their values; `connected`
      is set, and the QPS sample stored, only once all seven steps passed;
      the replication branch runs only then. */
  function GetBasicStatus(st: DbState, conf: DbConfig, role: string, r: StatusReplies): (out: StatusRun)
    ensures out.status.ip == conf.ip && out.status.role == role
    ensures out.status.connected <==> StatusPassed(st, conf, r, 7)
    ensures !out.status.connected ==>
              && out.status.error == Some(FirstStatusError(st, conf, r)) && out.status.qps == 0
              && ReplicationDefaults(out.status)
              && out.state.samples == st.samples
    ensures out.status.connected ==>
              out.state.samples == st.samples[PoolKey(conf) := QpsSample(r.now, r.queries.value)]
    ensures out.state.pools == GetPool(st.pools, conf, r.newPool).pools
  {
    var res0 := DefaultStatus(conf.ip, role);
    var lookup := GetPool(st.pools, conf, r.newPool);
    var st1 := st.(pools := lookup.pools);
    if lookup.pool.Raised? then StatusRun(Failed(res0, lookup.pool.error), st1)
    else if r.acquire.Raised? then StatusRun(Failed(res0, r.acquire.error), st1)
    else if r.version.Raised? then StatusRun(Failed(res0, r.version.error), st1)
    else
      var res1 := res0.(version := r.version.value);
      if r.threadsConnected.Raised? then StatusRun(Failed(res1, r.threadsConnected.error), st1)
      else
        var res2 := res1.(connCurr := r.threadsConnected.value);
        if r.maxConnections.Raised? then StatusRun(Failed(res2, r.maxConnections.error), st1)
        else
          var res3 := res2.(connMax := r.maxConnections.value);
          if r.uptime.Raised? then StatusRun(Failed(res3, r.uptime.error), st1)
          else
            var res4 := res3.(uptime := Uptime.UptimeText(r.uptime.value));
            if r.queries.Raised? then StatusRun(Failed(res4, r.queries.error), st1)
            else
              var sampled := SampleQps(st1.samples, PoolKey(conf), r.now, r.queries.value);
              var res5 := res4.(qps := sampled.qps, connected := true);
              var st2 := st1.(samples := sampled.samples);
              if role == MasterRole then StatusRun(MasterBranch(res5, r.masterRow), st2)
              else StatusRun(SlaveBranch(res5, r.slaveRow), st2)
  }

  /** A probe writes the process-wide registries only under its own
      endpoint's key: every other endpoint keeps its pool and its sample. */
  lemma ProbeTouchesOwnKey(st: DbState, conf: DbConfig, role: string, r: StatusReplies, key: string)
    requires key != PoolKey(conf)
    ensures var out := GetBasicStatus(st, conf, role, r).state;
            SameEntry(st.pools, out.pools, key) && SameEntry(st.samples, out.samples, key)
  {
  }

  /** A connected probe leaves a pool for its endpoint and the fresh rate
      sample under the endpoint's key. */
  lemma ConnectedProbeStores(st: DbState, conf: DbConfig, role: string, r: StatusReplies)
    requires GetBasicStatus(st, conf, role, r).status.connected
    ensures var out := GetBasicStatus(st, conf, role, r).state;
            && r.queries.Returned?
            && PoolKey(conf) in out.pools
            && PoolKey(conf) in out.samples && out.samples[PoolKey(conf)] == QpsSample(r.now, r.queries.value)
  {
  }

  /** The fields assigned before a failing step keep their values: each
      server fact is reported exactly when its step and all before it
      passed, and holds its initial value otherwise. */
  lemma FieldsKeptBeforeFailure(st: DbState, conf: DbConfig, role: string, r: StatusReplies)
    ensures var s := GetBasicStatus(st, conf, role, r).status;
            && s.version == (if StatusPassed(st, conf, r, 3) then r.version.value else "")
            && s.connCurr == (if StatusPassed(st, conf, r, 4) then r.threadsConnected.value else 0)
            && s.connMax == (if StatusPassed(st, conf, r, 5) then r.maxConnections.value else 0)
            && s.uptime == (if StatusPassed(st, conf, r, 6) then Uptime.UptimeText(r.uptime.value) else "")
  {
  }

  /** A connected probe reports the sampler's rate for the endpoint: the
      counter delta over a positive elapsed time, rounded toward zero, and 0
      without an earlier sample or without elapsed time. */
  lemma BasicStatusQps(st: DbState, conf: DbConfig, role: string, r: StatusReplies)
    requires StatusPassed(st, conf, r, 7)
    ensures var s := GetBasicStatus(st, conf, role, r).status;
            var key := PoolKey(conf);
            && (key in st.samples && r.now > st.samples[key].ts ==>
                  TruncQuotient(s.qps, r.queries.value - st.samples[key].count, r.now - st.samples[key].ts))
            && (key !in st.samples || r.now <= st.samples[key].ts ==> s.qps == 0)
  {
  }

  /** Replication fields of a connected primary: the binlog coordinates of
      its status row, if it returned one; the replica fields untouched. */
  lemma MasterReplication(st: DbState, conf: DbConfig, r: StatusReplies)
    requires StatusPassed(st, conf, r, 7)
    ensures var s := GetBasicStatus(st, conf, MasterRole, r).status;
            && s.io == Some("No") && s.sql == Some("No") && s.delay == -1
            && s.gtid == "" && s.readPos == Some(0) && s.execPos == Some(0)
            && (r.masterRow.Raised? ==> s.error == Some(r.masterRow.error) && s.file == Some("") && s.pos == Some(0))
            && (r.masterRow.Returned? ==> s.error == None)
            && (r.masterRow == Returned(None) ==> s.file == Some("") && s.pos == Some(0))
            && (r.masterRow.Returned? && r.masterRow.value.Some? ==>
                  s.file == r.masterRow.value.value.file && s.pos == r.masterRow.value.value.position)
  {
  }

  /** Any role other than "master" reads the replica status. Without a
      status row `io`/`sql` stay "No" and `delay` stays -1; with one, the
      row's defaulting rules apply. */
  lemma SlaveReplication(st: DbState, conf: DbConfig, role: string, r: StatusReplies)
    requires StatusPassed(st, conf, r, 7) && role != MasterRole
    ensures var s := GetBasicStatus(st, conf, role, r).status;
            && s.connected
            && (r.slaveRow.Raised? ==> s.error == Some(r.slaveRow.error) && ReplicationDefaults(s))
            && (r.slaveRow == Returned(None) ==> s.error == None && ReplicationDefaults(s))
            && (r.slaveRow.Returned? && r.slaveRow.value.Some? ==>
                  var row := r.slaveRow.value.value;
                  && s.io == row.ioRunning && s.sql == row.sqlRunning
                  && s.delay == (if row.secondsBehind.Some? then row.secondsBehind.value else -1)
                  && (Truthy(row.lastSqlError) ==> s.error == row.lastSqlError)
                  && (!Truthy(row.lastSqlError) ==> s.error == row.lastIoError)
                  && s.gtid == GtidOf(row)
                  && s.file == row.masterLogFile && s.readPos == row.readPos && s.execPos == row.execPos
                  && s.pos == Some(0))
  {
  }

  /** A failing replication statement leaves the probe connected with an
      error: `connected` does not mean "no error", and "not connected" does
      not mean every field holds its default. */
  lemma ConnectedWithError(conf: DbConfig)
    ensures var r := StatusReplies(Returned(1), Returned(()), Returned("8.0"), Returned(3), Returned(151),
                                   Returned(90000), Raised("denied"), 0, Returned(None), Returned(None));
            var s := GetBasicStatus(DbState(map[], map[]), conf, MasterRole, r).status;
            && !s.connected && s.version == "8.0" && s.connMax == 151 && s.error == Some("denied")
    ensures var r := StatusReplies(Returned(1), Returned(()), Returned("8.0"), Returned(3), Returned(151),
                                   Returned(90000), Returned(42), 0, Returned(None), Raised("denied"));
            var s := GetBasicStatus(DbState(map[], map[]), conf, "slave", r).status;
            s.connected && s.error == Some("denied")
  {
  }

  // ---------------------------------------------------------------------
  // DBMonitor.get_details

  /** The buffer-pool hit rate: "100%" without any read request, otherwise
      the percentage `(1 - misses/requests) * 100`, where the misses are
      the reads that had to go to disk (`Innodb_buffer_pool_reads`), kept as its operands. */
  datatype HitRate = AllHits | Ratio(misses: int, requests: int)

  /** The guard of the hit rate: the division is made only with a positive
      number of read requests. */
  function HitRateFor(misses: int, requests: int): (h: HitRate)
    ensures h.Ratio? <==> requests > 0
    ensures h.Ratio? ==> h.misses == misses && h.requests == requests && h.requests != 0
  {
    if requests > 0 then Ratio(misses, requests) else AllHits
  }

  datatype InnodbMetrics = InnodbMetrics(bufferPoolBytes: Option<int>, hitRate: HitRate)

  /** A result row as the driver's dictionary cursor returns it. */
  datatype SqlRow = SqlRow(columns: map<string, string>)

  /** The result of `get_details`; `innodb == None` is the empty dictionary
      the result starts with. */
  datatype Details = Details(
    innodb: Option<InnodbMetrics>, locks: seq<SqlRow>, slowQueries: seq<SqlRow>,
    tables: seq<SqlRow>, error: Option<string>)

  const EmptyDetails: Details := Details(None, [], [], [], None)

  /** What the driver did for each step of one `get_details` call. */
  datatype DetailReplies = DetailReplies(
    newPool: Attempt<nat>,
    acquire: Attempt<()>,
    bufferPoolSize: Attempt<Option<int>>,
    poolReads: Attempt<int>,
    readRequests: Attempt<int>,
    locks: Attempt<seq<SqlRow>>,
    slowQueries: Attempt<seq<SqlRow>>,
    tables: Attempt<seq<SqlRow>>)

  datatype DetailRun = DetailRun(details: Details, pools: map<string, Pool>)

  /** The first `k` steps that can abort the probe succeeded: 1 pool,
      2 connection, 3 buffer-pool size, 4 pool reads, 5 read requests,
      6 sessions, 7 tables. The slow-query step cannot abort it. */
  ghost predicate DetailPassed(pools: map<string, Pool>, conf: DbConfig, r: DetailReplies, k: nat) {
    && (k >= 1 ==> PoolKey(conf) in pools || r.newPool.Returned?)
    && (k >= 2 ==> r.acquire.Returned?)
    && (k >= 3 ==> r.bufferPoolSize.Returned?)
    && (k >= 4 ==> r.poolReads.Returned?)
    && (k >= 5 ==> r.readRequests.Returned?)
    && (k >= 6 ==> r.locks.Returned?)
    && (k >= 7 ==> r.tables.Returned?)
  }

  /** The message of the first step, in step order, that raised and ended
      `get_details`; the slow-query step never does. */
  ghost function FirstDetailError(pools: map<string, Pool>, conf: DbConfig, r: DetailReplies): string
    requires !DetailPassed(pools, conf, r, 7)
  {
    if !DetailPassed(pools, conf, r, 1) then r.newPool.error
    else if !DetailPassed(pools, conf, r, 2) then r.acquire.error
    else if !DetailPassed(pools, conf, r, 3) then r.bufferPoolSize.error
    else if !DetailPassed(pools, conf, r, 4) then r.poolReads.error
    else if !DetailPassed(pools, conf, r, 5) then r.readRequests.error
    else if !DetailPassed(pools, conf, r, 6) then r.locks.error
    else r.tables.error
  }

  /** `get_details`: best effort. A failing slow-query statement degrades to
      an empty list without an error; any other failure sets `error` and
      keeps the sections gathered before it. */
  function GetDetails(pools: map<string, Pool>, conf: DbConfig, r: DetailReplies): (out: DetailRun)
    ensures out.details.error.None? <==> DetailPassed(pools, conf, r, 7)
    ensures !DetailPassed(pools, conf, r, 7) ==> out.details.error == Some(FirstDetailError(pools, conf, r))
    ensures out.details.innodb.Some? <==> DetailPassed(pools, conf, r, 5)
    ensures out.details.innodb.Some? ==>
              out.details.innodb.value
              == InnodbMetrics(r.bufferPoolSize.value, HitRateFor(r.poolReads.value, r.readRequests.value))
    ensures out.details.locks == if DetailPassed(pools, conf, r, 6) then r.locks.value else []
    ensures out.details.slowQueries ==
              if DetailPassed(pools, conf, r, 6) && r.slowQueries.Returned? then r.slowQueries.value else []
    ensures out.details.tables == if DetailPassed(pools, conf, r, 7) then r.tables.value else []
    ensures out.pools == GetPool(pools, conf, r.newPool).pools
  {
    var lookup := GetPool(pools, conf, r.newPool);
    var d0 := EmptyDetails;
    if lookup.pool.Raised? then DetailRun(d0.(error := Some(lookup.pool.error)), lookup.pools)
    else if r.acquire.Raised? then DetailRun(d0.(error := Some(r.acquire.error)), lookup.pools)
    else if r.bufferPoolSize.Raised? then DetailRun(d0.(error := Some(r.bufferPoolSize.error)), lookup.pools)
    else if r.poolReads.Raised? then DetailRun(d0.(error := Some(r.poolReads.error)), lookup.pools)
    else if r.readRequests.Raised? then DetailRun(d0.(error := Some(r.readRequests.error)), lookup.pools)
    else
      var metrics := InnodbMetrics(r.bufferPoolSize.value, HitRateFor(r.poolReads.value, r.readRequests.value));
      var d1 := d0.(innodb := Some(metrics));
      if r.locks.Raised? then DetailRun(d1.(error := Some(r.locks.error)), lookup.pools)
      else
        var d2 := d1.(locks := r.locks.value);
        var d3 := d2.(slowQueries := if r.slowQueries.Returned? then r.slowQueries.value else []);
        if r.tables.Raised? then DetailRun(d3.(error := Some(r.tables.error)), lookup.pools)
        else DetailRun(d3.(tables := r.tables.value), lookup.pools)
  }

  /** Without read requests the hit rate is "100%" and nothing is divided. */
  lemma NoReadRequestsMeansAllHits(pools: map<string, Pool>, conf: DbConfig, r: DetailReplies)
    requires DetailPassed(pools, conf, r, 5) && r.readRequests.value <= 0
    ensures GetDetails(pools, conf, r).details.innodb.value.hitRate == AllHits
  {
  }

  /** The slow-query source does not decide whether the call fails: changing
      only its outcome changes only the `slowQueries` section. */
  lemma SlowQueriesIsolated(pools: map<string, Pool>, conf: DbConfig, r: DetailReplies, slow: Attempt<seq<SqlRow>>)
    ensures var a := GetDetails(pools, conf, r).details;
            var b := GetDetails(pools, conf, r.(slowQueries := slow)).details;
            a.(slowQueries := []) == b.(slowQueries := [])
  {
  }

  /** Both probes run under `retry_async()` with its defaults, but neither
      lets an exception out: the wrapper calls each exactly once and hands
      back its record unchanged. */
  lemma ProbesCalledOnce(st: DbState, conf: DbConfig, role: string, r: StatusReplies,
                         pools: map<string, Pool>, dr: DetailReplies)
    ensures var op := (attempt: nat) => Returned(GetBasicStatus(st, conf, role, r));
            Utils.Retry(op, Utils.DefaultRetries, Utils.DefaultDelay)
            == Utils.RetryRun(Some(GetBasicStatus(st, conf, role, r)), [Utils.Call(0)])
    ensures var op := (attempt: nat) => Returned(GetDetails(pools, conf, dr));
            Utils.Retry(op, Utils.DefaultRetries, Utils.DefaultDelay)
            == Utils.RetryRun(Some(GetDetails(pools, conf, dr)), [Utils.Call(0)])
  {
    var status := (attempt: nat) => Returned(GetBasicStatus(st, conf, role, r));
    assert status(0) == Returned(GetBasicStatus(st, conf, role, r));
    Utils.FirstAttemptReturns(status, Utils.DefaultRetries, Utils.DefaultDelay);
    var details := (attempt: nat) => Returned(GetDetails(pools, conf, dr));
    assert details(0) == Returned(GetDetails(pools, conf, dr));
    Utils.FirstAttemptReturns(details, Utils.DefaultRetries, Utils.DefaultDelay);
  }
}

=== FILE: inference.dfy ===
/** Health probing of the inference nodes (`InferenceMonitor.check_node`)
    and the shared HTTP session it draws from.

    The network is a parameter: a `NodeProbe` says what the HTTP request and
    the TCP connection attempt of one call would do, with the elapsed
    milliseconds already truncated to an integer. */
module Inference {
  import opened Wrappers
  import opened Text
  import Utils

  /** One configured inference node. */
  datatype NodeConfig = NodeConfig(name: string, ip: string, port: nat)

  /** The shape of a configured node as the configuration supplies it. */
  datatype NodeArg = DictArg(entry: NodeConfig) | ObjectArg(entry: NodeConfig)

  /** Outcome of `GET http://ip:port/health` with a two-second timeout.
      `released` is false when leaving the response context raised after the
      reply had been read. */
  datatype HttpOutcome =
    | HttpReply(code: nat, latencyMs: nat, released: bool)
    | HttpError

  /** Outcome of the fallback TCP connect. `closed` is false when closing
      the writer raised after the connection was made. */
  datatype TcpOutcome =
    | TcpOpened(latencyMs: nat, closed: bool)
    | TcpError

  datatype NodeProbe = NodeProbe(http: HttpOutcome, tcp: TcpOutcome)

  /** The `status` field of a node report. */
  datatype NodeState = Ready | HttpStatus(code: nat) | TcpOk | Offline | Down

  datatype NodeStatus = NodeStatus(name: string, url: string, state: NodeState, latencyMs: nat)

  const HttpPrefix: string := "http_"

  /** The wire text of a node state. */
  function Label(s: NodeState): (r: string)
    ensures |r| > 0
    ensures s.HttpStatus? ==> HttpPrefix <= r
    ensures s.HttpStatus? <==> r[0] == 'h'
  {
    match s
    case Ready => "ready"
    case HttpStatus(code) => HttpPrefix + NatToString(code)
    case TcpOk => "tcp_ok"
    case Offline => "offline"
    case Down => "down"
  }

  /** Reads a state back from its wire text. */
  function ParseLabel(t: string): (r: Option<NodeState>)
    ensures r.Some? && r.value.HttpStatus? ==> HttpPrefix <= t
  {
    if t == "ready" then Some(Ready)
    else if t == "tcp_ok" then Some(TcpOk)
    else if t == "offline" then Some(Offline)
    else if t == "down" then Some(Down)
    else if HttpPrefix <= t then
      var digits := t[|HttpPrefix|..];
      if digits != [] && AllDigits(digits) && (digits[0] != '0' || |digits| == 1)
      then Some(HttpStatus(DigitsValue(digits)))
      else None
    else None
  }

  /** Every state is recovered from its text. */
  lemma LabelRoundTrip(s: NodeState)
    ensures ParseLabel(Label(s)) == Some(s)
  {
    if s.HttpStatus? {
      var t := Label(s);
      assert t[|HttpPrefix|..] == NatToString(s.code);
      assert t != "ready" && t != "tcp_ok" && t != "offline" && t != "down" by {
        assert t[0] == 'h';
      }
      NatToStringRoundTrip(s.code);
    }
  }

  /** Distinct states are reported as distinct texts. */
  lemma LabelInjective(a: NodeState, b: NodeState)
    ensures Label(a) == Label(b) <==> a == b
  {
    LabelRoundTrip(a);
    LabelRoundTrip(b);
  }

  /** The `url` field: `ip:port`. */
  function Endpoint(c: NodeConfig): string {
    HostPort(c.ip, c.port)
  }

  /** Whether the HTTP probe produced a report: a reply was read and its
      context was left cleanly. */
  predicate HttpAnswered(p: NodeProbe) {
    p.http.HttpReply? && p.http.released
  }

  /** `check_node` for a node whose fields are readable. The report starts as
      `down` with latency 0; an answered HTTP probe decides it; otherwise the
      TCP probe does, and a failure anywhere in that step leaves `offline`
      with whatever latency had already been written. */
  function CheckNode(c: NodeConfig, p: NodeProbe): (r: NodeStatus)
    ensures r.name == c.name && r.url == Endpoint(c)
    ensures r.state != Down
    ensures r.state == Ready <==> HttpAnswered(p) && p.http.code == 200
    ensures r.state.HttpStatus? <==> HttpAnswered(p) && p.http.code != 200
    ensures r.state.HttpStatus? ==> r.state.code == p.http.code
    ensures r.state == TcpOk <==> !HttpAnswered(p) && p.tcp.TcpOpened? && p.tcp.closed
    ensures r.state == Offline <==> !HttpAnswered(p) && !(p.tcp.TcpOpened? && p.tcp.closed)
    ensures HttpAnswered(p) ==> r.latencyMs == p.http.latencyMs
    ensures !HttpAnswered(p) && p.tcp.TcpOpened? ==> r.latencyMs == p.tcp.latencyMs
    ensures !HttpAnswered(p) && p.tcp.TcpError? ==>
              r.latencyMs == if p.http.HttpReply? then p.http.latencyMs else 0
  {
    var res := NodeStatus(c.name, Endpoint(c), Down, 0);
    var res := if p.http.HttpReply? then res.(latencyMs := p.http.latencyMs) else res;
    var res := if p.http.HttpReply? then
                 res.(state := if p.http.code == 200 then Ready else HttpStatus(p.http.code))
               else res;
    if HttpAnswered(p) then res
    else
      match p.tcp
      case TcpError => res.(state := Offline)
      case TcpOpened(ms, closed) =>
        var res := res.(latencyMs := ms, state := TcpOk);
        if closed then res else res.(state := Offline)
  }

  /** Once the HTTP probe has answered, the TCP probe is never consulted. */
  lemma HttpAnswerDecides(c: NodeConfig, p1: NodeProbe, p2: NodeProbe)
    requires HttpAnswered(p1) && p1.http == p2.http
    ensures CheckNode(c, p1) == CheckNode(c, p2)
  {
  }

  /** A connection made but not closed cleanly is reported offline, yet the
      measured connect latency stays in the report. */
  lemma LatencyKeptWhenCloseFails(c: NodeConfig)
    ensures var r := CheckNode(c, NodeProbe(HttpError, TcpOpened(12, false)));
            r.state == Offline && r.latencyMs == 12
  {
  }

  /** A reply whose response context fails on exit is discarded, and a node
      unreachable over TCP is then reported offline with the HTTP latency. */
  lemma HttpLatencyKeptWhenExitFails(c: NodeConfig)
    ensures var r := CheckNode(c, NodeProbe(HttpReply(200, 40, false), TcpError));
            r.state == Offline && r.latencyMs == 40
  {
  }

  /** `check_node` runs under `retry_async(retries=1)`: one retry, after the
      default delay of one second. */
  const NodeRetries: nat := 1

  /** The message of the exception attribute access raises on a dict. */
  const DictAttributeError: string := "'dict' object has no attribute 'ip'"

  /** `check_node` as written: it reads `config.ip`, `config.port` and
      `config.name` as attributes before any `try`, so a dict argument
      raises out of the call. */
  function CheckNodeAsWritten(arg: NodeArg, p: NodeProbe): (r: Attempt<NodeStatus>)
    ensures r.Raised? <==> arg.DictArg?
    ensures r.Returned? ==> r.value == CheckNode(arg.entry, p)
  {
    match arg
    case DictArg(_) => Raised(DictAttributeError)
    case ObjectArg(c) => Returned(CheckNode(c, p))
  }

  /** The retry-wrapped probe of one dict-configured node as written: two
      calls, one second apart, then `None`. */
  lemma DictNodeNeverReports(c: NodeConfig, probe: nat -> NodeProbe)
    ensures var run := Utils.Retry((attempt: nat) => CheckNodeAsWritten(DictArg(c), probe(attempt)),
                                   NodeRetries, Utils.DefaultDelay);
            run.result == None && run.steps == [Utils.Call(0), Utils.Sleep(Utils.DefaultDelay), Utils.Call(1)]
  {
    var op := (attempt: nat) => CheckNodeAsWritten(DictArg(c), probe(attempt));
    var last := Utils.RetryFrom(op, NodeRetries, Utils.DefaultDelay, 1);
    assert op(0) == CheckNodeAsWritten(DictArg(c), probe(0));
    assert op(1) == CheckNodeAsWritten(DictArg(c), probe(1));
    assert last == Utils.RetryRun(None, [Utils.Call(1)]);
    assert Utils.RetryFrom(op, NodeRetries, Utils.DefaultDelay, 0) == Utils.RetryRun(None, [Utils.Call(0), Utils.Sleep(Utils.DefaultDelay)] + last.steps);
    assert Utils.Retry(op, NodeRetries, Utils.DefaultDelay) == Utils.RetryRun(None, [Utils.Call(0), Utils.Sleep(Utils.DefaultDelay)] + last.steps);
  }

  /** The retry-wrapped probe of one node as written: a dict-configured node
      is never reported, an object-configured one is reported by its first
      call. */
  function ProbeNodeAsWritten(arg: NodeArg, probe: nat -> NodeProbe): (r: Option<NodeStatus>)
    ensures r == if arg.DictArg? then None else Some(CheckNode(arg.entry, probe(0)))
  {
    var op := (attempt: nat) => CheckNodeAsWritten(arg, probe(attempt));
    if arg.DictArg? then
      DictNodeNeverReports(arg.entry, probe);
      Utils.Retry(op, NodeRetries, Utils.DefaultDelay).result
    else
      assert op(0) == CheckNodeAsWritten(arg, probe(0));
      Utils.FirstAttemptReturns(op, NodeRetries, Utils.DefaultDelay);
      Utils.Retry(op, NodeRetries, Utils.DefaultDelay).result
  }

  /** `check_node` reading the node's fields as dict keys: it never raises,
      whatever the network does. */
  function CheckNodeEntry(arg: NodeArg, p: NodeProbe): (r: Attempt<NodeStatus>)
    ensures r.Returned? && r.value.name == arg.entry.name && r.value.state != Down
  {
    Returned(CheckNode(arg.entry, p))
  }

  /** The retry-wrapped probe of one node with its fields read as keys: the
      first call reports, with no sleep. */
  function ProbeNode(arg: NodeArg, probe: nat -> NodeProbe): (r: Option<NodeStatus>)
    ensures r == Some(CheckNode(arg.entry, probe(0)))
  {
    var op := (attempt: nat) => CheckNodeEntry(arg, probe(attempt));
    assert op(0) == CheckNodeEntry(arg, probe(0));
    Utils.FirstAttemptReturns(op, NodeRetries, Utils.DefaultDelay);
    Utils.Retry(op, NodeRetries, Utils.DefaultDelay).result
  }

  /** The connector of a freshly created shared session. */
  datatype Connector = Connector(limit: nat, dnsCacheTtl: nat)

  const SessionConnector: Connector := Connector(100, 300)

  datatype Session = Session(id: nat, connector: Connector, closed: bool)

  /** The returned session together with the new value of the module-level
      shared session. */
  datatype SessionLookup = SessionLookup(session: Session, shared: Option<Session>)

  /** `get_session`: reuse the shared session while it exists and is open,
      otherwise create one (with identity `freshId`) and share it. */
  function GetSession(shared: Option<Session>, freshId: nat): (r: SessionLookup)
    ensures r.shared == Some(r.session) && !r.session.closed
    ensures shared.Some? && !shared.value.closed ==> r.session == shared.value
    ensures shared.None? || shared.value.closed ==>
              r.session == Session(freshId, SessionConnector, false)
  {
    if shared.None? || shared.value.closed then
      var s := Session(freshId, SessionConnector, false);
      SessionLookup(s, Some(s))
    else SessionLookup(shared.value, shared)
  }

  /** A second lookup returns the session the first one produced, whatever
      identity a new session would have had. */
  lemma SessionReused(shared: Option<Session>, id1: nat, id2: nat)
    ensures var first := GetSession(shared, id1);
            GetSession(first.shared, id2) == first
  {
  }
}

=== FILE: settings.dfy ===
/** The deployment's configuration: the inference nodes, the hosts shown on
    the dashboard and the MySQL primary and replicas. The database password
    comes from the environment and is a parameter here. */
module Settings {
  import Inference
  import Db

  /** `INFERENCE_NODES`, each supplied as a dict. */
  const InferenceNodes: seq<Inference.NodeArg> := [
    Inference.DictArg(Inference.NodeConfig("qwen-201-0123", "192.168.1.201", 30000)),
    Inference.DictArg(Inference.NodeConfig("qwen-201-4567", "192.168.1.201", 30001)),
    Inference.DictArg(Inference.NodeConfig("qwen-202-0123", "192.168.1.202", 30000)),
    Inference.DictArg(Inference.NodeConfig("qwen-202-4567", "192.168.1.202", 30001)),
    Inference.DictArg(Inference.NodeConfig("qwen-21-4567", "192.168.1.21", 30001))
  ]

  const ZabbixEnabled: bool := true

  /** `MONITOR_IPS`: the physical hosts on the dashboard. */
  const MonitorIps: seq<string> := [
    "192.168.1.106", "192.168.1.107", "192.168.1.105", "192.168.1.104",
    "192.168.1.21", "192.168.1.201", "192.168.1.202"
  ]

  const MysqlPort: nat := 3306
  const MysqlUser: string := "root"

  /** `MASTER`, with the password read from the environment. */
  function Master(password: string): Db.DbConfig {
    Db.DbConfig("192.168.1.106", MysqlPort, MysqlUser, password)
  }

  /** `SLAVES`, in configured order. */
  function Slaves(password: string): seq<Db.DbConfig> {
    [ Db.DbConfig("192.168.1.107", MysqlPort, MysqlUser, password),
      Db.DbConfig("192.168.1.105", MysqlPort, MysqlUser, password),
      Db.DbConfig("192.168.1.104", MysqlPort, MysqlUser, password) ]
  }
}

=== FILE: text.dfy ===
/** Decimal rendering of integers (Python's `str(int)`), substring search
    (Python's `pat in s`) and the facts about separators that make the
    rendered keys and labels of the model unambiguous. */
module Text {

  predicate IsDigit(c: char) {
    '0' <= c <= '9'
  }

  predicate AllDigits(s: string) {
    forall i :: 0 <= i < |s| ==> IsDigit(s[i])
  }

  function DigitChar(d: nat): (c: char)
    requires d < 10
    ensures IsDigit(c) && c as int - '0' as int == d
  {
    "0123456789"[d]
  }

  /** `str(n)` for a non-negative integer: no leading zeros, at least one digit. */
  function NatToString(n: nat): (s: string)
    ensures 1 <= |s| && AllDigits(s)
    ensures |s| > 1 ==> s[0] != '0'
    decreases n
  {
    if n < 10 then [DigitChar(n)] else NatToString(n / 10) + [DigitChar(n % 10)]
  }

  /** The value of a string of decimal digits. */
  function DigitsValue(s: string): nat
    requires AllDigits(s)
  {
    if s == [] then 0 else DigitsValue(s[..|s| - 1]) * 10 + (s[|s| - 1] as int - '0' as int)
  }

  /** Reading back a rendered number gives the number. */
  lemma {:induction false} NatToStringRoundTrip(n: nat)
    ensures DigitsValue(NatToString(n)) == n
    decreases n
  {
    if n >= 10 {
      NatToStringRoundTrip(n / 10);
      var s := NatToString(n);
      assert s[..|s| - 1] == NatToString(n / 10);
    }
  }

  /** Two numbers render alike exactly when they are equal. */
  lemma NatToStringInjective(a: nat, b: nat)
    ensures NatToString(a) == NatToString(b) <==> a == b
  {
    if NatToString(a) == NatToString(b) {
      NatToStringRoundTrip(a);
      NatToStringRoundTrip(b);
    }
  }

  /** `str(i)` for any integer: a minus sign before the digits of a negative one. */
  function IntToString(i: int): (s: string)
    ensures 1 <= |s|
    ensures i >= 0 <==> IsDigit(s[0])
    ensures i < 0 <==> s[0] == '-'
    ensures forall k :: 0 < k < |s| ==> IsDigit(s[k])
  {
    if i < 0 then "-" + NatToString(-i) else NatToString(i)
  }

  /** Two integers render alike exactly when they are equal. */
  lemma IntToStringInjective(a: int, b: int)
    ensures IntToString(a) == IntToString(b) <==> a == b
  {
    if IntToString(a) == IntToString(b) {
      if a < 0 {
        assert IntToString(a)[1..] == NatToString(-a);
        assert IntToString(b)[1..] == NatToString(-b);
        NatToStringInjective(-a, -b);
      } else {
        NatToStringInjective(a, b);
      }
    }
  }

  /** An endpoint written as the IP, a colon and the decimal port. */
  function HostPort(ip: string, port: nat): (k: string)
    ensures |k| > |ip| && k[..|ip|] == ip && k[|ip|] == ':'
    ensures k[|ip| + 1..] == NatToString(port)
  {
    ip + [':'] + NatToString(port)
  }

  /** Python's `pat in s` on strings: `pat` occurs at some position of `s`
      (the empty pattern occurs everywhere). */
  predicate Contains(s: string, pat: string)
    decreases |s|
  {
    pat <= s || (s != [] && Contains(s[1..], pat))
  }

  /** `Contains` holds exactly when `pat` starts at some position of `s`. */
  lemma ContainsAt(s: string, pat: string)
    ensures Contains(s, pat) <==> exists i :: 0 <= i <= |s| && pat <= s[i..]
  {
    if Contains(s, pat) {
      var i := ContainsWitness(s, pat);
      assert pat <= s[i..];
    }
    if exists i :: 0 <= i <= |s| && pat <= s[i..] {
      var i :| 0 <= i <= |s| && pat <= s[i..];
      ContainsFrom(s, pat, i);
    }
  }

  lemma {:induction false} ContainsWitness(s: string, pat: string) returns (i: nat)
    requires Contains(s, pat)
    ensures i <= |s| && pat <= s[i..]
    decreases |s|
  {
    if pat <= s {
      i := 0;
    } else {
      var j := ContainsWitness(s[1..], pat);
      assert s[1..][j..] == s[j + 1..];
      i := j + 1;
    }
  }

  lemma {:induction false} ContainsFrom(s: string, pat: string, i: nat)
    requires i <= |s| && pat <= s[i..]
    ensures Contains(s, pat)
    decreases i
  {
    if i > 0 {
      assert s[1..][i - 1..] == s[i..];
      ContainsFrom(s[1..], pat, i - 1);
    }
  }

  /** When `a1 + [sep] + b1 == a2 + [sep] + b2` and `a1` is the shorter
      left part, the separator after `a1` lies inside `a2`, and the one
      before `b2` lies inside `b1`. */
  lemma SeparatorInside(a1: string, b1: string, a2: string, b2: string, sep: char)
    requires a1 + [sep] + b1 == a2 + [sep] + b2
    requires |a1| < |a2|
    ensures sep in a2 && sep in b1
  {
    var s := a1 + [sep] + b1;
    assert s[|a1|] == a2[|a1|];
    var k := |a2| - |a1| - 1;
    assert s[|a2|] == b1[k];
  }

  /** Splitting `a + [sep] + b` at a separator that the left parts never
      contain recovers the parts. */
  lemma SplitAtFirst(a1: string, b1: string, a2: string, b2: string, sep: char)
    requires sep !in a1 && sep !in a2
    requires a1 + [sep] + b1 == a2 + [sep] + b2
    ensures a1 == a2 && b1 == b2
  {
    var s := a1 + [sep] + b1;
    if |a1| < |a2| {
      SeparatorInside(a1, b1, a2, b2, sep);
      assert false;
    } else if |a2| < |a1| {
      SeparatorInside(a2, b2, a1, b1, sep);
      assert false;
    }
    assert a1 == s[..|a1|] == a2;
    assert b1 == s[|a1| + 1..] == b2;
  }

  /** Splitting `a + [sep] + b` at a separator that the right parts never
      contain recovers the parts. */
  lemma SplitAtLast(a1: string, b1: string, a2: string, b2: string, sep: char)
    requires sep !in b1 && sep !in b2
    requires a1 + [sep] + b1 == a2 + [sep] + b2
    ensures a1 == a2 && b1 == b2
  {
    var s := a1 + [sep] + b1;
    if |b1| < |b2| {
      SeparatorInside(a2, b2, a1, b1, sep);
      assert false;
    } else if |b2| < |b1| {
      SeparatorInside(a1, b1, a2, b2, sep);
      assert false;
    }
    assert a1 == s[..|a1|] == a2;
    assert b1 == s[|a1| + 1..] == b2;
  }

  /** Digits are never a separator. */
  lemma DigitsExclude(s: string, c: char)
    requires AllDigits(s) && !IsDigit(c)
    ensures c !in s
  {
  }
}

=== FILE: uptime.dfy ===
/** The "days + hours" uptime text shared by the database probe
    (`app/core/db.py`) and the metrics bridge (`app/core/zabbix.py`). Both
    use Python's floor `//`, `%` and `divmod` with a positive divisor,
    which agree with Dafny's `/` and `%` for every integer. */
module Uptime {
  import opened Text

  const SecondsPerDay: int := 86400
  const SecondsPerHour: int := 3600

  /** The character 天 ("day") between the two numbers. */
  const DayMark: char := '\U{5929}'
  /** The text 小时 ("hours") after the hour count. */
  const HourMark: string := "\U{5C0F}\U{65F6}"

  datatype DaysHours = DaysHours(days: int, hours: int)

  /** Whole days, then whole hours of the remaining part of a day. */
  function Split(seconds: int): (r: DaysHours)
    ensures 0 <= r.hours < 24
    ensures r.days * SecondsPerDay + r.hours * SecondsPerHour <= seconds
    ensures seconds < r.days * SecondsPerDay + (r.hours + 1) * SecondsPerHour
  {
    DaysHours(seconds / SecondsPerDay, (seconds % SecondsPerDay) / SecondsPerHour)
  }

  /** The day count, the day mark, the hour count and the hour mark. */
  function Render(d: DaysHours): string {
    IntToString(d.days) + [DayMark] + IntToString(d.hours) + HourMark
  }

  function UptimeText(seconds: int): string {
    Render(Split(seconds))
  }

  /** Days and hours within the bounds `Split` promises are the hour count
      `seconds / 3600` written in base 24: so they are unique. */
  lemma HourCount(seconds: int, d: DaysHours)
    requires 0 <= d.hours < 24
    requires d.days * SecondsPerDay + d.hours * SecondsPerHour <= seconds
    requires seconds < d.days * SecondsPerDay + (d.hours + 1) * SecondsPerHour
    ensures seconds / SecondsPerHour == d.days * 24 + d.hours
  {
    var h := d.days * 24 + d.hours;
    assert h * SecondsPerHour <= seconds < (h + 1) * SecondsPerHour;
  }

  /** Different day/hour pairs render to different texts. */
  lemma RenderInjective(a: DaysHours, b: DaysHours)
    requires Render(a) == Render(b)
    ensures a == b
  {
    var da, db := IntToString(a.days), IntToString(b.days);
    var ra, rb := IntToString(a.hours) + HourMark, IntToString(b.hours) + HourMark;
    assert DayMark !in da && DayMark !in db;
    assert Render(a) == da + [DayMark] + ra;
    assert Render(b) == db + [DayMark] + rb;
    SplitAtFirst(da, ra, db, rb, DayMark);
    IntToStringInjective(a.days, b.days);
    assert IntToString(a.hours) == ra[..|ra| - |HourMark|];
    assert IntToString(b.hours) == rb[..|rb| - |HourMark|];
    IntToStringInjective(a.hours, b.hours);
  }

  /** Two uptimes read alike exactly when they fall in the same whole hour. */
  lemma UptimeTextSameHour(a: int, b: int)
    ensures UptimeText(a) == UptimeText(b) <==> a / SecondsPerHour == b / SecondsPerHour
  {
    var sa, sb := Split(a), Split(b);
    HourCount(a, sa);
    HourCount(b, sb);
    if UptimeText(a) == UptimeText(b) {
      RenderInjective(sa, sb);
    }
    if a / SecondsPerHour == b / SecondsPerHour {
      var h := a / SecondsPerHour;
      assert sa.days == h / 24 && sa.hours == h % 24;
      assert sb.days == h / 24 && sb.hours == h % 24;
    }
  }
}

=== FILE: utils.dfy ===
/** The time-boxed cache and the retry combinator of `app/core/utils.py`.
    Clocks are integer seconds supplied by the caller; the wrapped
    operation is a function from the attempt number to what that attempt
    did, so the combinator's schedule can be stated exactly. */
module Utils {
  import opened Wrappers
  import Uptime

  /** `TimedCache()` without arguments keeps entries for 30 seconds. */
  const DefaultTtl: int := 30
  /** The module-level `cache` instance keeps entries for 15 seconds. */
  const GlobalCacheTtl: int := 15

  /** `retry_async()` without arguments: two retries, one second apart. */
  const DefaultRetries: nat := 2
  const DefaultDelay: int := 1

  // ---------------------------------------------------------------------
  // TimedCache

  datatype CacheEntry<V> = CacheEntry(value: V, insertedAt: int)

  datatype TimedCache<V> = TimedCache(entries: map<string, CacheEntry<V>>, ttl: int)

  function NewCache<V>(ttl: int): TimedCache<V> {
    TimedCache(map[], ttl)
  }

  /** The `.seconds` attribute of the timedelta `now - past`: Python keeps a
      timedelta as whole days plus a seconds part in [0, 86400), so this is
      the age with whole days dropped, not the total age. */
  function SecondsComponent(now: int, past: int): (s: int)
    ensures 0 <= s < Uptime.SecondsPerDay
    ensures (now - past - s) % Uptime.SecondsPerDay == 0
    ensures 0 <= now - past < Uptime.SecondsPerDay ==> s == now - past
  {
    (now - past) % Uptime.SecondsPerDay
  }

  /** An entry is served while the seconds part of its age is below the TTL. */
  predicate Live<V>(c: TimedCache<V>, key: string, now: int)
    requires key in c.entries
  {
    SecondsComponent(now, c.entries[key].insertedAt) < c.ttl
  }

  /** `TimedCache.get`: the stored value while it is live, else nothing.
      Reading never changes the cache. */
  function Get<V>(c: TimedCache<V>, key: string, now: int): (r: Option<V>)
    ensures key !in c.entries ==> r == None
    ensures r.Some? <==> key in c.entries && Live(c, key, now)
    ensures r.Some? ==> r.value == c.entries[key].value
  {
    if key in c.entries && Live(c, key, now) then Some(c.entries[key].value) else None
  }

  /** `TimedCache.set`: stores the value with the current time, replacing any
      earlier entry for the key; no other key is touched. */
  function Set<V>(c: TimedCache<V>, key: string, value: V, now: int): (r: TimedCache<V>)
    ensures r.ttl == c.ttl
    ensures r.entries.Keys == c.entries.Keys + {key}
    ensures r.entries[key] == CacheEntry(value, now)
    ensures forall k :: k in c.entries && k != key ==> r.entries[k] == c.entries[k]
  {
    c.(entries := c.entries[key := CacheEntry(value, now)])
  }

  /** A value read back after being set is the value set, exactly when the
      seconds part of its age is below the TTL. */
  lemma GetAfterSet<V>(c: TimedCache<V>, key: string, value: V, setAt: int, now: int)
    ensures Get(Set(c, key, value, setAt), key, now)
            == if (now - setAt) % Uptime.SecondsPerDay < c.ttl then Some(value) else None
  {
  }

  /** A cache made with `TimedCache()` serves a value for exactly its first
      30 seconds (within the day). */
  lemma DefaultCacheLifetime<V>(key: string, value: V, setAt: int)
    ensures Get(Set(NewCache(DefaultTtl), key, value, setAt), key, setAt + 29) == Some(value)
    ensures Get(Set(NewCache(DefaultTtl), key, value, setAt), key, setAt + 30) == None
  {
  }

  /** Within the first TTL seconds after `set` the value is served. */
  lemma FreshValueServed<V>(c: TimedCache<V>, key: string, value: V, setAt: int, now: int)
    requires setAt <= now < setAt + c.ttl
    ensures Get(Set(c, key, value, setAt), key, now) == Some(value)
  {
  }

  /** Setting one key leaves what every other key reads unchanged. */
  lemma SetLeavesOtherKeys<V>(c: TimedCache<V>, key: string, other: string, value: V, setAt: int, now: int)
    requires other != key
    ensures Get(Set(c, key, value, setAt), other, now) == Get(c, other, now)
  {
  }

  /** The latest `set` wins: it overwrites both the value and the timestamp. */
  lemma LatestSetWins<V>(c: TimedCache<V>, key: string, v1: V, t1: int, v2: V, t2: int)
    ensures Set(Set(c, key, v1, t1), key, v2, t2) == Set(c, key, v2, t2)
  {
  }

  /** As written, an entry comes back to life one day after it was set: set
      at second 0 with the module cache's TTL of 15, it is served again at
      second 86405, although it is more than a day old. */
  lemma StaleEntryRevives()
    ensures var c := Set(NewCache<int>(GlobalCacheTtl), "k", 7, 0);
            Get(c, "k", 10) == Some(7) && Get(c, "k", 15) == None && Get(c, "k", 86405) == Some(7)
  {
  }

  /** The evidently intended reading, on the total age of the entry: an
      entry is served while `now - insertedAt < ttl`. */
  function GetByTotalAge<V>(c: TimedCache<V>, key: string, now: int): (r: Option<V>)
    ensures key !in c.entries ==> r == None
    ensures r.Some? ==> r.value == c.entries[key].value
  {
    if key in c.entries && now - c.entries[key].insertedAt < c.ttl then Some(c.entries[key].value) else None
  }

  /** With the total age, a value set at `t0` is served until `t0 + ttl` and
      absent from `t0 + ttl` onward, for ever. */
  lemma TotalAgeExpiresForever<V>(c: TimedCache<V>, key: string, value: V, t0: int, now: int)
    ensures GetByTotalAge(Set(c, key, value, t0), key, now) == Some(value) <==> now < t0 + c.ttl
    ensures now >= t0 + c.ttl ==> GetByTotalAge(Set(c, key, value, t0), key, now) == None
  {
  }

  /** The two readings agree on entries younger than a day that were not
      set in the future. */
  lemma ReadingsAgreeWithinADay<V>(c: TimedCache<V>, key: string, now: int)
    requires key in c.entries
    requires 0 <= now - c.entries[key].insertedAt < Uptime.SecondsPerDay
    ensures Get(c, key, now) == GetByTotalAge(c, key, now)
  {
  }

  // ---------------------------------------------------------------------
  // retry_async

  /** What the wrapper does, in order: call the operation (attempt number
      counted from 0) or sleep for some seconds. */
  datatype Step = Call(attempt: nat) | Sleep(seconds: int)

  /** The wrapper's result (`None` once every attempt raised) and its steps. */
  datatype RetryRun<T> = RetryRun(result: Option<T>, steps: seq<Step>)

  /** The steps of a run that starts at attempt `first`: calls and sleeps
      alternate, beginning and ending with a call. */
  ghost predicate Alternates(steps: seq<Step>, first: nat, delay: int) {
    && |steps| % 2 == 1
    && forall k :: 0 <= k < |steps| ==>
         steps[k] == if k % 2 == 0 then Call(first + k / 2) else Sleep(delay)
  }

  /** The number of the last attempt a run made. */
  function LastAttempt(steps: seq<Step>, first: nat): nat {
    first + |steps| / 2
  }

  /** The retry loop from attempt `i` on: a returned value ends the loop at
      once; a raised exception is followed by a sleep when attempts remain,
      and by `None` when it was the last one. */
  function RetryFrom<T>(op: nat -> Attempt<T>, retries: nat, delay: int, i: nat): (run: RetryRun<T>)
    requires i <= retries
    decreases retries - i
    ensures Alternates(run.steps, i, delay)
    ensures LastAttempt(run.steps, i) <= retries
    ensures forall j :: i <= j < LastAttempt(run.steps, i) ==> op(j).Raised?
    ensures run.result.Some? ==> op(LastAttempt(run.steps, i)) == Returned(run.result.value)
    ensures run.result.None? ==> LastAttempt(run.steps, i) == retries && op(retries).Raised?
  {
    match op(i)
    case Returned(v) => RetryRun(Some(v), [Call(i)])
    case Raised(_) =>
      if i < retries then
        var rest := RetryFrom(op, retries, delay, i + 1);
        RetryRun(rest.result, [Call(i), Sleep(delay)] + rest.steps)
      else
        RetryRun(None, [Call(i)])
  }

  /** `retry_async(retries, delay)` applied to `op`. */
  function Retry<T>(op: nat -> Attempt<T>, retries: nat, delay: int): (run: RetryRun<T>)
    ensures Alternates(run.steps, 0, delay)
    ensures LastAttempt(run.steps, 0) <= retries
    ensures run.result.Some? <==> exists j :: 0 <= j <= retries && op(j).Returned?
    ensures run.result.Some? ==> op(LastAttempt(run.steps, 0)) == Returned(run.result.value)
    ensures forall j :: 0 <= j < LastAttempt(run.steps, 0) ==> op(j).Raised?
  {
    RetryFrom(op, retries, delay, 0)
  }

  function CountCalls(steps: seq<Step>): nat {
    if steps == [] then 0 else CountCalls(steps[..|steps| - 1]) + (if steps[|steps| - 1].Call? then 1 else 0)
  }

  function CountSleeps(steps: seq<Step>): nat {
    if steps == [] then 0 else CountSleeps(steps[..|steps| - 1]) + (if steps[|steps| - 1].Sleep? then 1 else 0)
  }

  /** An alternating run of `2m + 1` steps makes `m + 1` calls and `m` sleeps. */
  lemma {:induction false} AlternatingCounts(steps: seq<Step>, first: nat, delay: int)
    requires Alternates(steps, first, delay)
    ensures CountCalls(steps) == |steps| / 2 + 1
    ensures CountSleeps(steps) == |steps| / 2
    decreases |steps|
  {
    if |steps| > 1 {
      var shorter := steps[..|steps| - 2];
      assert Alternates(shorter, first, delay) by {
        forall k | 0 <= k < |shorter|
          ensures shorter[k] == if k % 2 == 0 then Call(first + k / 2) else Sleep(delay)
        {
          assert shorter[k] == steps[k];
        }
      }
      AlternatingCounts(shorter, first, delay);
      assert steps[..|steps| - 1][..|steps| - 2] == shorter;
    }
  }

  /** The wrapper makes at most `retries + 1` calls, and exactly one sleep
      between consecutive calls. */
  lemma RetryCallBudget<T>(op: nat -> Attempt<T>, retries: nat, delay: int)
    ensures var run := Retry(op, retries, delay);
            && 1 <= CountCalls(run.steps) <= retries + 1
            && CountSleeps(run.steps) == CountCalls(run.steps) - 1
            && run.steps[|run.steps| - 1].Call?
  {
    var run := Retry(op, retries, delay);
    AlternatingCounts(run.steps, 0, delay);
  }

  /** An operation that always raises is called exactly `retries + 1` times
      with `retries` sleeps of `delay` between them, none after the last,
      and the wrapper returns `None`. */
  lemma AlwaysRaising<T>(op: nat -> Attempt<T>, retries: nat, delay: int)
    requires forall j :: op(j).Raised?
    ensures var run := Retry(op, retries, delay);
            && run.result == None
            && CountCalls(run.steps) == retries + 1
            && CountSleeps(run.steps) == retries
            && run.steps[|run.steps| - 1] == Call(retries)
  {
    var run := Retry(op, retries, delay);
    AlternatingCounts(run.steps, 0, delay);
    assert run.steps[|run.steps| - 1] == Call(LastAttempt(run.steps, 0));
  }

  /** The first returned value is handed back immediately: an operation that
      succeeds on its first attempt is called once and never waited on. */
  lemma FirstAttemptReturns<T>(op: nat -> Attempt<T>, retries: nat, delay: int)
    requires op(0).Returned?
    ensures Retry(op, retries, delay) == RetryRun(Some(op(0).value), [Call(0)])
  {
  }

  /** With the default parameters an always-raising operation is tried three
      times with two one-second sleeps. */
  lemma DefaultSchedule<T>(op: nat -> Attempt<T>)
    requires forall j :: op(j).Raised?
    ensures Retry(op, DefaultRetries, DefaultDelay).steps
            == [Call(0), Sleep(1), Call(1), Sleep(1), Call(2)]
  {
    var run := Retry(op, DefaultRetries, DefaultDelay);
    AlwaysRaising(op, DefaultRetries, DefaultDelay);
    assert |run.steps| == 5;
  }
}

=== FILE: wrappers.dfy ===
/** Failure-carrying datatypes shared by every module of the model. */
module Wrappers {

  /** A value that may be missing: Python's `None` or an absent dictionary key. */
  datatype Option<+T> = None | Some(value: T)

  /** The outcome of one call into code that may raise: the value it returned,
      or the message of the exception it raised (`str(e)`). */
  datatype Attempt<+T> = Returned(value: T) | Raised(error: string)

  /** Python truthiness of an optional string: `None` and `""` are false. */
  predicate Truthy(s: Option<string>) {
    s.Some? && s.value != ""
  }

  /** Python's `a or b` on optional strings: `a` when it is truthy, else `b` as it is. */
  function OrElse(a: Option<string>, b: Option<string>): (r: Option<string>)
    ensures Truthy(a) ==> r == a
    ensures !Truthy(a) ==> r == b
    ensures Truthy(r) <==> Truthy(a) || Truthy(b)
  {
    if Truthy(a) then a else b
  }
}

=== FILE: zabbix.dfy ===
/** The mapping rules of `ZabbixMonitor.get_hosts_metrics`
    (`app/core/zabbix.py`). The API session is not modelled: what login,
    host lookup, item lookup and logout did is an input, and so are the
    numeric conversions `round(float(v), 1)` and `int(v)`, given as
    functions that answer `None` where Python raises. */
module Zabbix {
  import opened Wrappers
  import opened Text
  import Uptime

  datatype HostState = Online | Offline | Err

  /** The per-IP record: `{"ip", "status", "cpu", "mem", "disk", "uptime"}`. */
  datatype HostRecord = HostRecord(ip: string, status: HostState, cpu: real, mem: real, disk: real, uptime: string)

  const NoUptime: string := "-"

  /** The record of a configured IP before any host resolves to it. */
  function DefaultRecord(ip: string): (r: HostRecord)
    ensures r.ip == ip && r.status == Offline
    ensures r.cpu == 0.0 && r.mem == 0.0 && r.disk == 0.0 && r.uptime == NoUptime
  {
    HostRecord(ip, Offline, 0.0, 0.0, 0.0, NoUptime)
  }

  /** The record of every configured IP when the API fails. */
  function ErrRecord(ip: string): (r: HostRecord)
    ensures r.ip == ip && r.status == Err
    ensures r.cpu == 0.0 && r.mem == 0.0 && r.disk == 0.0 && r.uptime == NoUptime
  {
    HostRecord(ip, Err, 0.0, 0.0, 0.0, NoUptime)
  }

  /** The configured IPs as the set of keys of the result. */
  function Monitored(ips: seq<string>): set<string> {
    set ip | ip in ips
  }

  /** Every configured IP starts `offline`, with zero metrics and no uptime. */
  function DefaultRecords(ips: seq<string>): (m: map<string, HostRecord>)
    ensures m.Keys == Monitored(ips)
    ensures forall ip :: ip in m ==> m[ip].ip == ip && m[ip].status == Offline
    ensures forall ip :: ip in m ==> m[ip] == DefaultRecord(ip)
  {
    map ip | ip in ips :: DefaultRecord(ip)
  }

  /** The uniform answer of the error path: every configured IP is `err`. */
  function ErrRecords(ips: seq<string>): (m: map<string, HostRecord>)
    ensures m.Keys == Monitored(ips)
    ensures forall ip :: ip in m ==> m[ip].ip == ip && m[ip].status == Err
    ensures forall ip :: ip in m ==> m[ip] == ErrRecord(ip)
  {
    map ip | ip in ips :: ErrRecord(ip)
  }

  /** A host as `host.get` returns it, with the IPs of its interfaces. */
  datatype Host = Host(hostId: string, interfaces: seq<string>)

  /** An item as `item.get` returns it. */
  datatype Item = Item(hostId: string, key: string, lastValue: string)

  // ---------------------------------------------------------------------
  // Host resolution

  /** The first interface whose IP is monitored. */
  function FirstMonitored(interfaces: seq<string>, monitored: set<string>): (r: Option<string>)
    ensures r.None? <==> forall i :: 0 <= i < |interfaces| ==> interfaces[i] !in monitored
    ensures r.Some? ==> r.value in monitored && r.value in interfaces
    ensures r.Some? ==> exists k :: 0 <= k < |interfaces| && interfaces[k] == r.value
                                    && forall j :: 0 <= j < k ==> interfaces[j] !in monitored
    decreases |interfaces|
  {
    if interfaces == [] then None
    else if interfaces[0] in monitored then Some(interfaces[0])
    else FirstMonitored(interfaces[1..], monitored)
  }

  /** The monitored interfaces, in order. */
  function MonitoredOnly(interfaces: seq<string>, monitored: set<string>): seq<string>
    decreases |interfaces|
  {
    if interfaces == [] then []
    else if interfaces[0] in monitored then [interfaces[0]] + MonitoredOnly(interfaces[1..], monitored)
    else MonitoredOnly(interfaces[1..], monitored)
  }

  /** The first monitored interface is the head of the monitored ones. */
  lemma {:induction false} FirstOfMonitoredOnly(interfaces: seq<string>, monitored: set<string>)
    ensures var only := MonitoredOnly(interfaces, monitored);
            FirstMonitored(interfaces, monitored) == if only == [] then None else Some(only[0])
    decreases |interfaces|
  {
    if interfaces != [] && interfaces[0] !in monitored {
      FirstOfMonitoredOnly(interfaces[1..], monitored);
    }
  }

  /** The IP a host resolves to: its first monitored interface, if any. */
  function HostIp(h: Host, monitored: set<string>): Option<string> {
    FirstMonitored(h.interfaces, monitored)
  }

  /** Interfaces whose IP is not monitored play no part in resolution:
      hosts with the same monitored interfaces resolve alike. */
  lemma UnmonitoredInterfacesIgnored(h1: Host, h2: Host, monitored: set<string>)
    requires MonitoredOnly(h1.interfaces, monitored) == MonitoredOnly(h2.interfaces, monitored)
    ensures HostIp(h1, monitored) == HostIp(h2, monitored)
  {
    FirstOfMonitoredOnly(h1.interfaces, monitored);
    FirstOfMonitoredOnly(h2.interfaces, monitored);
  }

  /** The records, and `ip_map` from host id to the IP it resolved to. */
  datatype Resolution = Resolution(records: map<string, HostRecord>, ipMap: map<string, string>)

  /** Some host among `hosts` resolves to `ip`. */
  ghost predicate SomeHostResolvesTo(hosts: seq<Host>, monitored: set<string>, ip: string) {
    exists i :: 0 <= i < |hosts| && HostIp(hosts[i], monitored) == Some(ip)
  }

  /** Some host among `hosts` with id `hid` resolves. */
  ghost predicate SomeHostWithIdResolves(hosts: seq<Host>, monitored: set<string>, hid: string) {
    exists i :: 0 <= i < |hosts| && hosts[i].hostId == hid && HostIp(hosts[i], monitored).Some?
  }

  /** The host at `i` resolves and no later host with the same id does. */
  ghost predicate LastResolvingWithId(hosts: seq<Host>, monitored: set<string>, i: int) {
    && 0 <= i < |hosts|
    && HostIp(hosts[i], monitored).Some?
    && forall j :: i < j < |hosts| && hosts[j].hostId == hosts[i].hostId ==> HostIp(hosts[j], monitored).None?
  }

  /** One host of the loop: its first monitored interface, if any, is
      marked online and recorded as the host's IP. */
  function ResolveOne(prev: Resolution, h: Host, monitored: set<string>): (r: Resolution)
    requires prev.records.Keys == monitored
    ensures r.records.Keys == monitored
    ensures r.ipMap == match HostIp(h, monitored)
                       case None => prev.ipMap
                       case Some(ip) => prev.ipMap[h.hostId := ip]
  {
    match HostIp(h, monitored)
    case None => prev
    case Some(ip) =>
      Resolution(prev.records[ip := prev.records[ip].(status := Online)], prev.ipMap[h.hostId := ip])
  }

  /** The host loop, over the hosts in the order the API returned them.
      No key is added, and every IP recorded in `ip_map` is marked online. */
  function ResolveHosts(hosts: seq<Host>, ips: seq<string>): (r: Resolution)
    ensures r.records.Keys == Monitored(ips)
    ensures forall hid :: hid in r.ipMap ==>
              r.ipMap[hid] in r.records && r.records[r.ipMap[hid]].status == Online
    decreases |hosts|
  {
    if hosts == [] then Resolution(DefaultRecords(ips), map[])
    else ResolveOne(ResolveHosts(hosts[..|hosts| - 1], ips), hosts[|hosts| - 1], Monitored(ips))
  }

  /** Extending the host list by one host extends the IPs some host
      resolves to by that host's IP alone. */
  lemma ResolvesToStep(prefix: seq<Host>, h: Host, m: set<string>, ip: string)
    ensures SomeHostResolvesTo(prefix + [h], m, ip) <==>
            SomeHostResolvesTo(prefix, m, ip) || HostIp(h, m) == Some(ip)
  {
    var hosts := prefix + [h];
    if SomeHostResolvesTo(prefix, m, ip) {
      var i :| 0 <= i < |prefix| && HostIp(prefix[i], m) == Some(ip);
      assert hosts[i] == prefix[i];
    }
    if SomeHostResolvesTo(hosts, m, ip) {
      var i :| 0 <= i < |hosts| && HostIp(hosts[i], m) == Some(ip);
      if i < |prefix| {
        assert hosts[i] == prefix[i];
      }
    }
    assert hosts[|prefix|] == h;
  }

  /** After the host loop a configured IP is `online` exactly when some host
      resolved to it; nothing else in its record changes. */
  lemma {:induction false} ResolvedRecord(hosts: seq<Host>, ips: seq<string>, ip: string)
    requires ip in ips
    ensures ResolveHosts(hosts, ips).records[ip]
            == DefaultRecord(ip).(status := if SomeHostResolvesTo(hosts, Monitored(ips), ip) then Online else Offline)
    decreases |hosts|
  {
    if hosts != [] {
      var m := Monitored(ips);
      var prefix := hosts[..|hosts| - 1];
      var h := hosts[|hosts| - 1];
      ResolvedRecord(prefix, ips, ip);
      ResolvesToStep(prefix, h, m, ip);
      assert prefix + [h] == hosts;
    } else {
      assert ip in Monitored(ips);
    }
  }

  /** Extending the host list by one host extends the hosts with a
      resolving id by that host alone. */
  lemma IdResolvesStep(prefix: seq<Host>, h: Host, m: set<string>, hid: string)
    ensures SomeHostWithIdResolves(prefix + [h], m, hid) <==>
            SomeHostWithIdResolves(prefix, m, hid) || (h.hostId == hid && HostIp(h, m).Some?)
  {
    var hosts := prefix + [h];
    if SomeHostWithIdResolves(prefix, m, hid) {
      var i :| 0 <= i < |prefix| && prefix[i].hostId == hid && HostIp(prefix[i], m).Some?;
      assert hosts[i] == prefix[i];
    }
    if SomeHostWithIdResolves(hosts, m, hid) {
      var i :| 0 <= i < |hosts| && hosts[i].hostId == hid && HostIp(hosts[i], m).Some?;
      if i < |prefix| {
        assert hosts[i] == prefix[i];
      }
    }
    assert hosts[|prefix|] == h;
  }

  /** `ip_map` holds exactly the ids of the hosts that resolved. */
  lemma {:induction false} ResolvedIds(hosts: seq<Host>, ips: seq<string>, hid: string)
    ensures hid in ResolveHosts(hosts, ips).ipMap <==> SomeHostWithIdResolves(hosts, Monitored(ips), hid)
    decreases |hosts|
  {
    if hosts != [] {
      var m := Monitored(ips);
      var prefix := hosts[..|hosts| - 1];
      var h := hosts[|hosts| - 1];
      ResolvedIds(prefix, ips, hid);
      IdResolvesStep(prefix, h, m, hid);
      assert prefix + [h] == hosts;
    }
  }

  /** When hosts share an id, `ip_map` keeps the IP of the last of them that
      resolved. */
  lemma {:induction false} LastResolvingWins(hosts: seq<Host>, ips: seq<string>, i: int)
    requires LastResolvingWithId(hosts, Monitored(ips), i)
    ensures hosts[i].hostId in ResolveHosts(hosts, ips).ipMap
    ensures ResolveHosts(hosts, ips).ipMap[hosts[i].hostId] == HostIp(hosts[i], Monitored(ips)).value
    decreases |hosts|
  {
    var m := Monitored(ips);
    var prefix := hosts[..|hosts| - 1];
    var h := hosts[|hosts| - 1];
    var prev := ResolveHosts(prefix, ips);
    var r := ResolveOne(prev, h, m);
    assert ResolveHosts(hosts, ips) == r;
    var hid := hosts[i].hostId;
    if i < |prefix| {
      assert LastResolvingWithId(prefix, m, i) by {
        forall j | i < j < |prefix| && prefix[j].hostId == prefix[i].hostId
          ensures HostIp(prefix[j], m).None?
        {
          assert hosts[j] == prefix[j];
        }
      }
      LastResolvingWins(prefix, ips, i);
      assert prefix[i] == hosts[i];
      assert h.hostId == hid ==> HostIp(h, m).None?;
    } else {
      assert hosts[i] == h;
    }
  }

  /** No host resolving leaves `ip_map` empty and every record at its
      default. */
  lemma NothingResolved(hosts: seq<Host>, ips: seq<string>)
    ensures ResolveHosts(hosts, ips).ipMap == map[] <==>
            forall i :: 0 <= i < |hosts| ==> HostIp(hosts[i], Monitored(ips)).None?
    ensures ResolveHosts(hosts, ips).ipMap == map[] ==> ResolveHosts(hosts, ips).records == DefaultRecords(ips)
  {
    var r := ResolveHosts(hosts, ips);
    var m := Monitored(ips);
    if r.ipMap == map[] {
      forall i | 0 <= i < |hosts| ensures HostIp(hosts[i], m).None? {
        ResolvedIds(hosts, ips, hosts[i].hostId);
      }
      forall ip | ip in r.records ensures r.records[ip] == DefaultRecord(ip) {
        ResolvedRecord(hosts, ips, ip);
      }
    } else {
      var hid :| hid in r.ipMap;
      ResolvedIds(hosts, ips, hid);
    }
  }

  // ---------------------------------------------------------------------
  // Item dispatch

  /** The record field an item key feeds, by substring, in this order of
      precedence. */
  datatype Field = Cpu | Mem | Disk | UptimeField | NoField

  const CpuKey: string := "system.cpu.util"
  const MemKey: string := "vm.memory.size"
  const DiskKey: string := "vfs.fs.size"
  const UptimeKey: string := "system.uptime"

  function Classify(key: string): (f: Field)
    ensures f == Cpu <==> Contains(key, CpuKey)
    ensures f == Mem <==> !Contains(key, CpuKey) && Contains(key, MemKey)
    ensures f == Disk <==> !Contains(key, CpuKey) && !Contains(key, MemKey) && Contains(key, DiskKey)
    ensures f == UptimeField <==>
              !Contains(key, CpuKey) && !Contains(key, MemKey) && !Contains(key, DiskKey) && Contains(key, UptimeKey)
  {
    if Contains(key, CpuKey) then Cpu
    else if Contains(key, MemKey) then Mem
    else if Contains(key, DiskKey) then Disk
    else if Contains(key, UptimeKey) then UptimeField
    else NoField
  }

  /** A field's value: a percentage or the uptime text. */
  datatype Reading = Percent(value: real) | Words(text: string)

  function FieldValue(rec: HostRecord, f: Field): Reading
    requires f != NoField
  {
    match f
    case Cpu => Percent(rec.cpu)
    case Mem => Percent(rec.mem)
    case Disk => Percent(rec.disk)
    case UptimeField => Words(rec.uptime)
  }

  function SetField(rec: HostRecord, f: Field, v: Reading): (r: HostRecord)
    requires f != NoField
    requires (f == UptimeField) == v.Words?
    ensures FieldValue(r, f) == v
    ensures forall g :: g != NoField && g != f ==> FieldValue(r, g) == FieldValue(rec, g)
    ensures r.ip == rec.ip && r.status == rec.status
  {
    match f
    case Cpu => rec.(cpu := v.value)
    case Mem => rec.(mem := v.value)
    case Disk => rec.(disk := v.value)
    case UptimeField => rec.(uptime := v.text)
  }

  /** The value an item carries for its field, or `None` when the key feeds
      no field or the conversion raised. */
  function ItemReading(item: Item, toFloat: string -> Option<real>, toInt: string -> Option<int>): (r: Option<Reading>)
    ensures r.Some? ==> Classify(item.key) != NoField && ((Classify(item.key) == UptimeField) == r.value.Words?)
    ensures Classify(item.key) == UptimeField && toInt(item.lastValue).Some? ==>
              r == Some(Words(Uptime.UptimeText(toInt(item.lastValue).value)))
    ensures Classify(item.key) == UptimeField && toInt(item.lastValue).None? ==> r == None
    ensures Classify(item.key) == Cpu || Classify(item.key) == Mem || Classify(item.key) == Disk ==>
              r == if toFloat(item.lastValue).Some? then Some(Percent(toFloat(item.lastValue).value)) else None
  {
    match Classify(item.key)
    case NoField => None
    case UptimeField =>
      (match toInt(item.lastValue)
       case None => None
       case Some(s) => Some(Words(Uptime.UptimeText(s))))
    case _ =>
      (match toFloat(item.lastValue)
       case None => None
       case Some(x) => Some(Percent(x)))
  }

  /** The IP an item is for: the one its host resolved to. An item whose
      host is missing from the map, or maps to an empty IP, is skipped. */
  function ItemIp(item: Item, ipMap: map<string, string>): Option<string> {
    if item.hostId in ipMap && ipMap[item.hostId] != "" then Some(ipMap[item.hostId]) else None
  }

  /** Record keys, IPs and statuses that item dispatch never changes. */
  ghost predicate SameShape(a: map<string, HostRecord>, b: map<string, HostRecord>) {
    && a.Keys == b.Keys
    && forall ip :: ip in a ==> b[ip].ip == a[ip].ip && b[ip].status == a[ip].status
  }

  ghost predicate IpsResolved(records: map<string, HostRecord>, ipMap: map<string, string>) {
    forall hid :: hid in ipMap ==> ipMap[hid] in records
  }

  function ApplyItem(records: map<string, HostRecord>, ipMap: map<string, string>, item: Item,
                     toFloat: string -> Option<real>, toInt: string -> Option<int>): (r: map<string, HostRecord>)
    requires IpsResolved(records, ipMap)
    ensures SameShape(records, r)
  {
    match ItemIp(item, ipMap)
    case None => records
    case Some(ip) =>
      match ItemReading(item, toFloat, toInt)
      case None => records
      case Some(v) => records[ip := SetField(records[ip], Classify(item.key), v)]
  }

  /** The item loop, in the order the API returned the items. */
  function ApplyItems(records: map<string, HostRecord>, ipMap: map<string, string>, items: seq<Item>,
                      toFloat: string -> Option<real>, toInt: string -> Option<int>): (r: map<string, HostRecord>)
    requires IpsResolved(records, ipMap)
    ensures SameShape(records, r)
    decreases |items|
  {
    if items == [] then records
    else
      var prev := ApplyItems(records, ipMap, items[..|items| - 1], toFloat, toInt);
      ApplyItem(prev, ipMap, items[|items| - 1], toFloat, toInt)
  }

  /** The last reading, among `items`, for field `f` of `ip`. */
  function LastReading(items: seq<Item>, ipMap: map<string, string>, ip: string, f: Field,
                       toFloat: string -> Option<real>, toInt: string -> Option<int>): Option<Reading>
    decreases |items|
  {
    if items == [] then None
    else
      var item := items[|items| - 1];
      var v := ItemReading(item, toFloat, toInt);
      if ItemIp(item, ipMap) == Some(ip) && Classify(item.key) == f && v.Some? then v
      else LastReading(items[..|items| - 1], ipMap, ip, f, toFloat, toInt)
  }

  /** Each field of each record ends with the last parseable reading for it,
      and keeps its earlier value when there is none. Unparseable values,
      unresolved hosts and keys that feed no field leave it unchanged. */
  lemma {:induction false} LastReadingWins(records: map<string, HostRecord>, ipMap: map<string, string>, items: seq<Item>,
                                           toFloat: string -> Option<real>, toInt: string -> Option<int>,
                                           ip: string, f: Field)
    requires IpsResolved(records, ipMap)
    requires ip in records && f != NoField
    ensures var r := ApplyItems(records, ipMap, items, toFloat, toInt);
            FieldValue(r[ip], f) == match LastReading(items, ipMap, ip, f, toFloat, toInt)
                                    case None => FieldValue(records[ip], f)
                                    case Some(v) => v
    decreases |items|
  {
    if items != [] {
      LastReadingWins(records, ipMap, items[..|items| - 1], toFloat, toInt, ip, f);
    }
  }

  /** An item whose host did not resolve is skipped. */
  lemma UnresolvedItemSkipped(records: map<string, HostRecord>, ipMap: map<string, string>, items: seq<Item>,
                              item: Item, toFloat: string -> Option<real>, toInt: string -> Option<int>)
    requires IpsResolved(records, ipMap)
    requires item.hostId !in ipMap
    ensures ApplyItems(records, ipMap, items + [item], toFloat, toInt) == ApplyItems(records, ipMap, items, toFloat, toInt)
  {
    assert (items + [item])[..|items|] == items;
  }

  // ---------------------------------------------------------------------
  // get_hosts_metrics

  /** What the API did: login (with client construction), `host.get`,
      `item.get`, and the logout on whichever path is taken. */
  datatype ZabbixReplies = ZabbixReplies(
    login: Attempt<()>, hosts: Attempt<seq<Host>>, items: Attempt<seq<Item>>, logout: Attempt<()>)

  /** The API calls made on the way to the answer all succeeded. */
  ghost predicate ApiOk(api: ZabbixReplies, ips: seq<string>) {
    && api.login.Returned? && api.hosts.Returned? && api.logout.Returned?
    && (ResolveHosts(api.hosts.value, ips).ipMap != map[] ==> api.items.Returned?)
  }

  /** `get_hosts_metrics`. Disabled, it answers the empty map. Otherwise the
      keys are exactly the configured IPs, and any failing API call turns
      every record into `err`. */
  function GetHostsMetrics(enabled: bool, ips: seq<string>, api: ZabbixReplies,
                           toFloat: string -> Option<real>, toInt: string -> Option<int>): (r: map<string, HostRecord>)
    ensures !enabled ==> r == map[]
    ensures enabled ==> r.Keys == Monitored(ips)
    ensures enabled && !ApiOk(api, ips) ==> r == ErrRecords(ips)
  {
    if !enabled then map[]
    else if api.login.Raised? || api.hosts.Raised? then ErrRecords(ips)
    else
      var resolution := ResolveHosts(api.hosts.value, ips);
      if resolution.ipMap == map[] then
        if api.logout.Raised? then ErrRecords(ips) else resolution.records
      else if api.items.Raised? || api.logout.Raised? then ErrRecords(ips)
      else ApplyItems(resolution.records, resolution.ipMap, api.items.value, toFloat, toInt)
  }

  /** When every call succeeds, a configured IP is `online` exactly when
      some host resolved to it, and an IP no host resolved to keeps its
      default record. */
  lemma MetricsOnSuccess(ips: seq<string>, api: ZabbixReplies,
                         toFloat: string -> Option<real>, toInt: string -> Option<int>, ip: string)
    requires ApiOk(api, ips) && ip in ips
    ensures var r := GetHostsMetrics(true, ips, api, toFloat, toInt);
            && ip in r && r[ip].ip == ip
            && (r[ip].status == Online <==> SomeHostResolvesTo(api.hosts.value, Monitored(ips), ip))
            && (r[ip].status != Online ==> r[ip] == DefaultRecord(ip))
  {
    var resolution := ResolveHosts(api.hosts.value, ips);
    SuccessRecords(ips, api, toFloat, toInt);
    ResolvedRecord(api.hosts.value, ips, ip);
    if resolution.ipMap != map[] && resolution.records[ip].status != Online {
      NoReadingForOfflineIp(resolution, api.items.value, toFloat, toInt, ip);
    }
  }

  /** When every call succeeds the answer is the host loop's records, with
      the item loop applied once some host resolved. */
  lemma SuccessRecords(ips: seq<string>, api: ZabbixReplies,
                       toFloat: string -> Option<real>, toInt: string -> Option<int>)
    requires ApiOk(api, ips)
    ensures var resolution := ResolveHosts(api.hosts.value, ips);
            GetHostsMetrics(true, ips, api, toFloat, toInt)
            == if resolution.ipMap == map[] then resolution.records
               else ApplyItems(resolution.records, resolution.ipMap, api.items.value, toFloat, toInt)
  {
  }

  /** When every call succeeds, each numeric field and the uptime of a
      configured IP hold the last usable reading the item loop met for it,
      and the default value when there was none. Without any resolved host
      no items are requested and every field keeps its default. */
  lemma ReadingsOnSuccess(ips: seq<string>, api: ZabbixReplies,
                          toFloat: string -> Option<real>, toInt: string -> Option<int>, ip: string, f: Field)
    requires ApiOk(api, ips) && ip in ips && f != NoField
    ensures var r := GetHostsMetrics(true, ips, api, toFloat, toInt);
            var resolution := ResolveHosts(api.hosts.value, ips);
            && ip in r
            && (resolution.ipMap == map[] ==> FieldValue(r[ip], f) == FieldValue(DefaultRecord(ip), f))
            && (resolution.ipMap != map[] ==>
                  FieldValue(r[ip], f) == match LastReading(api.items.value, resolution.ipMap, ip, f, toFloat, toInt)
                                          case None => FieldValue(DefaultRecord(ip), f)
                                          case Some(v) => v)
  {
    var resolution := ResolveHosts(api.hosts.value, ips);
    SuccessRecords(ips, api, toFloat, toInt);
    ResolvedRecord(api.hosts.value, ips, ip);
    if resolution.ipMap != map[] {
      LastReadingWins(resolution.records, resolution.ipMap, api.items.value, toFloat, toInt, ip, f);
    }
  }

  /** When every call succeeds and no host resolves, every configured IP
      keeps its default `offline` record. */
  lemma NoHostResolves(ips: seq<string>, api: ZabbixReplies,
                       toFloat: string -> Option<real>, toInt: string -> Option<int>)
    requires ApiOk(api, ips)
    requires forall i :: 0 <= i < |api.hosts.value| ==> HostIp(api.hosts.value[i], Monitored(ips)).None?
    ensures GetHostsMetrics(true, ips, api, toFloat, toInt) == DefaultRecords(ips)
  {
    NothingResolved(api.hosts.value, ips);
  }

  /** Items never reach an IP that no host resolved to. */
  lemma NoReadingForOfflineIp(resolution: Resolution, items: seq<Item>,
                              toFloat: string -> Option<real>, toInt: string -> Option<int>, ip: string)
    requires IpsResolved(resolution.records, resolution.ipMap)
    requires forall hid :: hid in resolution.ipMap ==> resolution.records[resolution.ipMap[hid]].status == Online
    requires ip in resolution.records && resolution.records[ip].status != Online
    ensures ApplyItems(resolution.records, resolution.ipMap, items, toFloat, toInt)[ip] == resolution.records[ip]
    decreases |items|
  {
    if items != [] {
      NoReadingForOfflineIp(resolution, items[..|items| - 1], toFloat, toInt, ip);
    }
  }
}
